=== FILE: README.md ===
# async-content-summarizer, modelled in Dafny

The system accepts a piece of content, either raw text or a URL, as a job.
A worker later summarises the job with a language model, and clients poll for
the result. This project models the core of that system:

- the job record and its status machine;
- the content-addressed cache of summaries;
- the two retry policies: `generic_retry`, used around the fetch and the
  language-model call, and `retry_on_pgdb_exception`, used around store commits;
- content fetching with truncation, and summarisation with whitespace stripping;
- `process_job`, the worker that ties these together;
- the `submit`, `status` and `result` endpoints.

The model has one Dafny module per source file, plus four supporting modules:

| module | file | models |
|---|---|---|
| `Models` | `models.dfy` | `app/models.py`: `JobStatus`, `ContentType` and the `Job` record; the store is a map from job id to record |
| `Helpers` | `helpers.dfy` | `app/utils/helpers.py`: both retry decorators, as functions over a numbered sequence of attempts, and `hash_content` |
| `CacheService` | `cache_service.dfy` | `app/services/cache_service.py`: best-effort get and set |
| `ContentFetcher` | `content_fetcher.dfy` | `app/services/content_fetcher.py` |
| `Summarizer` | `summarizer.dfy` | `app/services/summarizer.py`, including Python's `str.strip()` |
| `Worker` | `worker.dfy` | `app/services/worker.py`: `process_job` as a function from a store, a cache and a job id to a run |
| `WorkerProperties` | `worker_properties.dfy` | the lifecycle properties of `process_job` |
| `Routes` | `routes.dfy` | `app/routes.py`: submit, status and result |
| `Outcomes` | `outcomes.dfy` | `Option`, the exceptions the core raises, and `Attempt` (a value or an exception) |
| `Utf8` | `utf8.dfy` | `str.encode()`, the bytes that `hash_content` hashes |
| `UrlParse` | `url_parse.dfy` | the scheme/netloc split `urllib.parse.urlparse` performs, as far as `submit` inspects it |
| `Scenarios` | `scenarios.dfy` | end-to-end runs across submit, the worker and polling |

## How the outside world is modelled

The model does no I/O. Every external call is a parameter, and each call
attempt is numbered so that a retry can see a different outcome.

A worker run is driven by a `Worker.Script`, which fixes:

- whether the cache backend fails on get and on set;
- what the HTML extractor returns for the `i`-th fetch attempt of a URL;
- what the language model replies to the `i`-th attempt on a text;
- how the `n`-th store commit attempt of the run ends;
- the elapsed milliseconds that the run reads from the clock.

A run returns:

- the store and the cache afterwards;
- the job record as the worker last held it in memory;
- the trace of effects it issued, in order: cache get, cache set, fetch
  request, chat request, commit attempt (with the record written and
  whether it was persisted), and sleep;
- whether the Celery task returned or raised.

A submission is driven by a `Routes.SubmitEnv`, which fixes:

- the fresh job id;
- the SHA-256 function;
- the clock;
- the outcome of each insert attempt;
- the outcome of the enqueue.

## Behaviour of the code worth knowing

- **COMPLETED and FAILED jobs are processed again.** `process_job` does not
  check the status it reads, so a re-dispatched job is processed again. On a
  cache miss its first write puts it back to PROCESSING
  (`WorkerProperties.FinishedJobIsReprocessed`).
- **A failed final commit leaves the summary on a FAILED job.** When the
  COMPLETED commit fails, the handler at `app/services/worker.py:88-91` only
  sets FAILED on the in-memory record, which already carries the summary and
  the processing time. A persisted FAILED record therefore has both
  (`WorkerProperties.FinalCommitFailureFails`).
- **An empty cached summary is a miss.** The worker tests the cached value for
  truthiness, so an empty summary is stored in the cache but never served from
  it (`Worker.CacheProbe`).
- **`generic_retry` sleeps after the last attempt too.** The code sleeps after
  every failed attempt, including the last one, so three failures give three
  sleeps before the exception is re-raised (`Helpers.GenericRetry`).
- **A negative delay stops `generic_retry` after one attempt.** `time.sleep`
  raises `ValueError` for a negative duration, and that exception escapes the
  loop after the first failure (`Helpers.GenericRetry`).
- **`retry_on_pgdb_exception` never reaches its trailing `return None`.** With
  `MAX_RETRIES = 3`, every path through the loop returns or raises
  (`Helpers.RetryOnPgdb`).

## Model

| member | source | states |
|---|---|---|
| Models.NewJob | app/models.py:26-42 | A new row carries the given id, hash, type, content, status and creation time, is not cached, and has no summary and no processing time. |
| Models.StatusValues | app/models.py:10-16 | The four statuses serialise to "queued", "processing", "completed" and "failed", and no two share a string. |
| Models.ContentTypeValues | app/models.py:19-23 | The two content types serialise to "text" and "url", and they are distinct. |
| Helpers.Raise | app/utils/helpers.py:18-25 | After the loop, the retained exception is re-raised unchanged; with no exception retained, the result is still an error. |
| Helpers.GenericRetryFrom | app/utils/helpers.py:19-25 | From attempt `a`, the trace alternates call and sleep. A success is the first successful attempt, after only failures. With a non-negative delay, an error is raised after every remaining attempt failed, with the last attempt's exception. With a negative delay, the first failure ends the run with the `ValueError` that `time.sleep` raises. |
| Helpers.GenericRetry | app/utils/helpers.py:12-29 | The run succeeds if and only if some attempt below `max_attempts` succeeds. The value is the first success, after only failures. Exhaustion re-raises the last attempt's own exception. Each failed attempt, the last included, is followed by a sleep of `delay`. A negative `delay` makes the first failure raise `ValueError` from `time.sleep`, so only attempt 0 can succeed. `max_attempts <= 0` raises `TypeError` at once without calling. |
| Helpers.DefaultRetryFacts | app/utils/helpers.py:12-29 | With the defaults (3 attempts, 5 seconds), a run has at most 6 events. A success is one of attempts 0 to 2, after failures. Exhaustion re-raises attempt 2's exception. |
| Helpers.RunGenericRetry | app/utils/helpers.py:18-25 | The imperative loop, with its sleeps, returns exactly the outcome and trace of the functional definition. |
| Helpers.RetryOnPgdbFrom | app/utils/helpers.py:47-64 | From retry `r`, every attempt before the last raised an `OperationalError` (SQLAlchemy or psycopg2). The result is the last attempt's own outcome. It stops early exactly when an attempt succeeds or raises another exception. At most 3 attempts are made in all. |
| Helpers.RetryOnPgdb | app/utils/helpers.py:42-68 | A commit is tried at most 3 times, with a 2-second sleep after each transient failure that is followed by another attempt; the last attempt is never followed by a sleep. Any other exception propagates after the first attempt, without retry or sleep. Three transient failures re-raise the third. |
| Helpers.RunRetryOnPgdb | app/utils/helpers.py:47-64 | The imperative loop returns exactly the outcome and trace of the functional definition. |
| Helpers.FingerprintSeparatesContent | app/utils/helpers.py:32-34 | Equal texts get equal fingerprints. Different texts hash different byte strings, so a collision-free digest keeps them apart. |
| Helpers.HashContent | app/utils/helpers.py:32-34 | The fingerprint is the SHA-256 digest of a byte string that decodes as UTF-8 back to exactly the text. |
| Utf8.EncodeChar | app/utils/helpers.py:34 | A character encodes to 1 to 4 bytes, and to 1 byte exactly when it is ASCII. Every byte after the first is a continuation byte. |
| Utf8.DecodeEncodeChar | app/utils/helpers.py:34 | Decoding the encoding of one character, followed by anything, gives that character back and consumes exactly its bytes. |
| Utf8.DecodeEncode | app/utils/helpers.py:34 | Decoding the UTF-8 encoding of any string gives the string back, so the encoding `hash_content` hashes is injective. |
| Utf8.EncodeAscii | app/utils/helpers.py:34 | An ASCII string encodes to its own code points, one byte per character. |
| CacheService.GetCachedSummary | app/services/cache_service.py:11-24 | A value is returned if and only if the backend works, the key is present and is in the cache, and then it is the stored value. Failures, including a missing key, read as "absent". |
| CacheService.SetCachedSummary | app/services/cache_service.py:27-33 | A working backend and a present key store the summary under the key. A failure or a missing key leaves the cache unchanged. Every other key keeps its value. |
| CacheService.SetThenGet | app/services/cache_service.py:11-33 | A successful set followed by a get on the same key returns the summary set. |
| ContentFetcher.Truncate | app/services/content_fetcher.py:9-27 | The result is a prefix of the text of at most 10000 characters. It is the whole text when the text fits, and exactly 10000 characters otherwise. |
| ContentFetcher.FetchUrlContent | app/services/content_fetcher.py:12-39 | At most 3 fetch attempts, with 5-second sleeps after each failure. A success is the first extracted text, truncated to 10000 characters. The run succeeds if and only if one of the three extract attempts succeeds; otherwise all three failed and the third attempt's exception is re-raised unwrapped. |
| Summarizer.LStrip | app/services/summarizer.py:30-31 | The result is a suffix of the input. What was removed is all whitespace, and the result starts with a non-space. |
| Summarizer.RStrip | app/services/summarizer.py:30-31 | The result is a prefix of the input. What was removed is all whitespace, and the result ends with a non-space. |
| Summarizer.Strip | app/services/summarizer.py:30-31 | The result is the input minus a whitespace prefix and a whitespace suffix, and it neither starts nor ends with whitespace. |
| Summarizer.StrippedOfUnique | app/services/summarizer.py:30-31 | At most one string is the stripped form of a given input, so `Strip` is the only function meeting its contract. |
| Summarizer.StripIdempotent | app/services/summarizer.py:30-31 | Stripping twice is stripping once. |
| Summarizer.SummaryFromReply | app/services/summarizer.py:30-31 | A missing or empty reply gives an empty summary. Any other reply gives its stripped form. |
| Summarizer.ReplySummaryTrimmed | app/services/summarizer.py:30-31 | Every summary built from a reply has no leading or trailing whitespace. |
| Summarizer.Summarize | app/services/summarizer.py:15-40 | At most 3 chat attempts, with 5-second sleeps after each failure. A success is the stripped reply of the first attempt that did not raise, so it is trimmed. The run succeeds if and only if one of the three chat attempts does not raise; otherwise all three raised and the third attempt's exception is re-raised unchanged. |
| Summarizer.SummarisedAtAttempt | app/services/summarizer.py:15-40 | When attempt `k` is the first success, the summary is the stripped reply of attempt `k`, and every earlier chat call raised. |
| UrlParse.Find | app/routes.py:39 | The first index of a character, or -1 exactly when it does not occur. |
| UrlParse.HasSchemeAndNetlocIff | app/routes.py:39-40 | The model's URL check accepts exactly those URLs whose cleaned form is `scheme://netloc...`. The scheme is a letter followed by scheme characters. The netloc is non-empty, free of `/?#`, and has balanced brackets. |
| UrlParse.AcceptedHasShape | app/routes.py:39-40 | Every accepted URL has a scheme, a `//`, and a non-empty authority ending at the first delimiter. |
| UrlParse.ShapeIsAccepted | app/routes.py:39-40 | Every URL with that shape is accepted by the model's check. |
| UrlParse.NoColonNoScheme | app/routes.py:39-40 | A URL without a colon has no scheme, so it is refused. |
| UrlParse.NoColonNoAuthority | app/routes.py:39-40 | A colon-free URL that does not start with `//` splits into an empty scheme and an empty netloc. |
| UrlParse.LStripC0 | app/routes.py:39 | The cleaning step drops exactly the longest prefix of C0 control and space characters: what it removes is all such characters and what remains does not start with one. |
| UrlParse.RemoveUnsafe | app/routes.py:39 | Tab, CR and LF are removed; every other character is kept, and none appears that was not there. |
| UrlParse.RemoveUnsafeAppend | app/routes.py:39 | Removal works piecewise over a concatenation, so the kept characters stay in their order. |
| UrlParse.UrlParse | app/routes.py:39-40 | The scheme is the lower-cased text before the first colon of the cleaned URL when that text is a letter followed by scheme characters, and empty otherwise. When the rest starts with `//`, the authority is everything up to the next `/`, `?` or `#`, and the parse raises `ValueError("Invalid IPv6 URL")` exactly when its brackets do not pair up; without `//` the authority is empty. |
| UrlParse.SchemeOf | app/routes.py:39 | The scheme is non-empty exactly when the text before the first colon is a letter followed by scheme characters, and then it is that text lower-cased. |
| UrlParse.SplitAuthority | app/routes.py:39-40 | After a leading `//`, the authority is exactly the text up to the first delimiter, and the split raises exactly when its brackets do not pair up; without `//` the authority is empty. The scheme passes through. |
| UrlParse.PlainWordSplit | app/routes.py:39-40 | A colon-free URL of safe characters that starts with neither a control, a space nor `/` splits into no scheme and no authority. |
| UrlParse.CleanOfSafe | app/routes.py:39 | A URL without leading control or space characters, and without tab, CR or LF, passes the cleaning step unchanged. |
| Routes.Validate | app/routes.py:20-45 | A body is accepted if and only if exactly one of text and url is truthy and, for a URL, the URL has a scheme and a netloc. The accepted type and content come from the field that was set. Both fields, or neither, give 400. A URL parse error gives 500. |
| Routes.WriteJob | app/utils/helpers.py:71-75 | Inserting the new row makes at most 3 attempts, retrying only after an `OperationalError`, and always retrying one raised before the third attempt. An id already in the store always fails; for a fresh id the result is the last insert attempt's own outcome. |
| Routes.CreatedJob | app/routes.py:48-63 | The inserted row is QUEUED, uncached, and has no summary or time. It carries the fresh id, the content, its type, the SHA-256 fingerprint of the content and the creation time. |
| Routes.Submit | app/routes.py:16-84 | 200 with `queued` if and only if the body is valid, the id is fresh, an insert attempt commits and the enqueue succeeds. Only then is the id enqueued. A refusal changes nothing. The store changes only by the new row, and only on 200 or a later 500. |
| Routes.SubmittedJobIsQueued | app/routes.py:48-81 | After a successful submission, polling reports the new job QUEUED with its creation time, and its result is not ready. Its row holds the submitted content and fingerprint. Existing rows are untouched. |
| Routes.SubmitKeepsRows | app/routes.py:48-63 | Submission keeps the store keyed by id and never overwrites an existing row. |
| Routes.Status | app/routes.py:87-112 | 404 if and only if the id is unknown. Otherwise it reports the row's id, status and creation time. |
| Routes.Result | app/routes.py:115-146 | 404 if and only if the id is unknown. 400 if and only if the job exists but is not COMPLETED. Otherwise it reports the summary, the cached flag and the processing time, plus the original URL exactly for URL jobs. |
| Worker.CommitPgdb | app/utils/helpers.py:42-81 | A persisted attempt upserts the whole record by id, and a failed commit leaves the store unchanged. There are 1 to 3 attempts, consecutive attempts separated by one sleep, and none after the last. The outcome is the last attempt's own outcome. Every earlier attempt failed transiently. |
| Worker.CacheProbe | app/services/worker.py:40-50 | The probe hits if and only if the cache get works, the job has a hash, and the cache holds a non-empty value under it. A failing get is a miss. |
| Worker.MarkFailed | app/services/worker.py:88-91 | The in-memory record becomes FAILED with everything else kept. The Celery task returns exactly when the FAILED commit persists, and then the store holds that record. Otherwise it raises and the store is unchanged. |
| Worker.ProcessJob | app/services/worker.py:25-93 | An unknown id returns with no effect and no change. For a stored job, the first effect is the cache lookup of its hash. |
| Worker.ProcessMissFacts | app/services/worker.py:61-91 | On a miss the run keeps the PROCESSING commit as its prefix, issues only faithful effects, and changes only the job's own row. When the PROCESSING commit itself fails, no fetch or chat call happens and the job ends FAILED. |
| WorkerProperties.CommitFirstOk | app/utils/helpers.py:47-49 | A commit whose first attempt succeeds makes exactly one attempt, with no sleep, and persists the record. |
| WorkerProperties.CommitExhausted | app/utils/helpers.py:47-61 | Three transient failures give three attempts and two sleeps, raise the third failure, and leave the store unchanged. |
| WorkerProperties.ProcessJobFacts | app/services/worker.py:25-93 | Whatever the services do, a run on a stored job ends with a record of that job that keeps its identity, is not QUEUED, and satisfies the lifecycle invariant (COMPLETED implies a summary and a time). The run issues only effects faithful to the job. The record is flagged cached if and only if the cache probe hit. |
| WorkerProperties.ReturnedRunIsDurable | app/services/worker.py:25-93 | A task that returns leaves the store equal to the old one with the job's final record written. |
| WorkerProperties.StoreStaysConsistent | app/services/worker.py:25-93 | `process_job` keeps the set of ids. It changes no other job's row and never changes a job's identity fields. It keeps the store keyed by id and preserves the lifecycle invariant on every row. |
| WorkerProperties.CacheHitCompletes | app/services/worker.py:50-59 | A hit completes the job with the cached summary, flagged cached, with the elapsed time. There is no PROCESSING write, fetch or chat call, only the commit and its retries. The Celery task returns with the row written, or raises with the store unchanged. |
| WorkerProperties.MissOrder | app/services/worker.py:61-75 | On a miss, the first effect after the probe is the PROCESSING commit. Every fetch or chat call comes after that commit persisted. |
| WorkerProperties.MissMarksProcessingFirst | app/services/worker.py:61-75 | The same, stated for `process_job` on a stored job whose probe misses. |
| WorkerProperties.FinishedJobIsReprocessed | app/services/worker.py:34-64 | A COMPLETED job dispatched again on a cache miss is written back to PROCESSING. |
| WorkerProperties.ContentIsRouted | app/services/worker.py:67-75 | Only a URL job fetches, and it fetches its own URL with a 5-second timeout. A text job's chat request carries its content. A URL job's chat request carries at most 10000 characters. |
| WorkerProperties.Done | app/services/worker.py:77-86 | The COMPLETED record keeps the job's identity, is uncached, holds the summary, and satisfies the lifecycle invariant. |
| WorkerProperties.MissCompletes | app/services/worker.py:61-86 | On a miss where the PROCESSING commit and then the COMPLETED commit persist, each after however many transient retries, and the text resolves and summarises, the Celery task returns with the COMPLETED record stored. That record has the summary, the elapsed time and no cached flag. The summary was offered to the cache, and the run ends with the cache set followed by exactly the COMPLETED commit's attempts and sleeps, the last persisted. |
| WorkerProperties.StepFailureFails | app/services/worker.py:61-91 | When fetching or summarising is exhausted after the PROCESSING commit persisted (after however many retries), the job ends FAILED with the summary and time its row already had, and the cache untouched. The Celery task returns exactly when the FAILED commit, its attempts numbered after the PROCESSING commit's, persists; then the store holds FAILED, and otherwise it keeps PROCESSING. |
| WorkerProperties.FinalCommitFailureFails | app/services/worker.py:77-91 | When the COMPLETED commit raises, after retries or with any other exception at once, the summary has been offered to the cache and the job ends FAILED still holding the summary and the time. The Celery task returns exactly when the FAILED commit, its attempts numbered after the two commits before it, persists; then the store holds FAILED, and otherwise it keeps PROCESSING. |
| Scenarios.NotAUrlIsRefused | app/routes.py:34-42 | Submitting the URL "not-a-url" gives 400 "Invalid URL format" and changes nothing. |
| Scenarios.BothFieldsAreRefused | app/routes.py:26-28 | A body with both text and url gives 400 and changes nothing. |
| Scenarios.TextIsSubmitted | app/routes.py:44-81 | A valid text submission with a working store and queue gives 200 `queued` and enqueues the new id. |
| Scenarios.QueuedTextCompletes | app/services/worker.py:61-86 | A freshly submitted text job processed on a cold cache, with the first two commit attempts persisting and the summariser succeeding within its three attempts, polls as COMPLETED. Its result is the summary, uncached, with the elapsed time; when the cache set does not fail, the cache then maps the content's fingerprint to the summary. |
| Scenarios.TextJobLifecycle | app/routes.py:16-146 | With a non-empty text, a fresh id, a first insert attempt that commits and a working enqueue: submit, then poll gives QUEUED and not ready. Then, on a cold cache, with the first two commit attempts persisting and the summariser succeeding within its three attempts, processing leaves the job COMPLETED with the summary as its result. |
| Scenarios.HitServes | app/services/worker.py:40-59 | A job whose fingerprint maps to a non-empty cached summary is completed from the cache with no external call. |
| Scenarios.SecondJobHitsCache | app/services/worker.py:40-86 | After one job completes on a miss with a non-empty summary, its PROCESSING and COMPLETED commits persisting after however many retries and its cache set not failing, a second job with the same content whose cache get works is served from the cache with that summary. |
| Scenarios.SummariserOutage | app/services/worker.py:61-91 | A language model that fails all three attempts, with the first two commit attempts persisting (PROCESSING, then FAILED), leaves the job polling as FAILED, with its result not ready and the cache untouched. |

## Left out

- Celery, dispatch and concurrency are not modelled. One run of `process_job` is one sequential function. Two workers racing on the same id are out of scope.
- `create_app`, configuration, the Flask app factory, the Swagger specs and logging have no effect on the modelled state.
- Real I/O, the clock, Redis, PostgreSQL, the HTTP client, BeautifulSoup and the OpenAI client are not modelled; they are replaced by scripted outcomes. The request timeouts (5 seconds for a fetch, 20 for a chat call) appear only as data in the request effects.
- HashContent: SHA-256 itself is a parameter returning a 64-character lower-case hex digest. The model proves only that distinct texts hash distinct byte strings.
- `updated_at` is not modelled. SQLAlchemy fills it on the Python side (`default=` and `onupdate=` in `app/models.py`); no modelled operation reads it.
- The store is modelled as an upsert of the whole in-memory record per commit. SQLAlchemy's rollback and attribute expiry after a failed commit are not modelled.
- Cache values are modelled as strings. The `.decode()` of the Redis bytes is the identity, and a decode error is not modelled.
- The outer `except` of `submit` (app/routes.py:82-84) is modelled only for a URL parse error. A body that is not JSON or not an object is not modelled. Neither is a truthy non-string field, such as `{"text": 5}` or `{"url": 5}`, for which `hash_content` or `urlparse` raises `AttributeError`, nor a text holding a lone surrogate such as `"\ud800"`, for which `text.encode()` raises `UnicodeEncodeError`; both give 500. The model's fields are strings of Unicode scalar values.
- UrlParse: only the scheme and netloc split is modelled. CPython's `_checknetloc`, which rejects a non-ASCII netloc whose NFKC normalisation introduces one of `/?#@:` (for example `http://a℀b`, which makes `submit` answer 500), is not modelled, because the model has no Unicode normalisation. CPython's check that a bracketed host is an IPv6 or IPvFuture address (which refuses `http://[abc]`, `a://[]` and `http://a[b]`, so `submit` answers 500) is not modelled, and neither are params, query or fragment, which `submit` ignores.
- StoreStaysConsistent: requires the store to be keyed by id (every row's id is its key). The database guarantees this through the primary key, so it is assumed rather than proved for arbitrary maps.
- Worker.ProcessJob: its own contract covers only the not-found case and the leading cache probe. The other outcomes are stated by the lemmas in `WorkerProperties`, which cover the hit path, the miss path, an exhausted fetch or summary, and a failing COMPLETED commit.
- Worker.ProcessJob, Routes.Status, Routes.Result: reading the store always succeeds in the model. A failing `Job.query.get` makes `process_job` raise (app/services/worker.py:34) and makes `status` and `result` answer 500 (app/routes.py:110-112 and 144-146); these paths are not modelled.
- HasSchemeAndNetlocIff: characterises the model's URL check, which omits both the NFKC netloc check and the bracketed-host check described above; CPython refuses some URLs this lemma accepts, ASCII ones included, such as `http://[abc]`, for which `submit` answers 500.
- ShapeIsAccepted: holds for the model's check; CPython additionally refuses a bracketed host that is not an IPv6 or IPvFuture address (`http://[abc]` gives 500) and a non-ASCII netloc whose NFKC form contains `/?#@:`.

=== FILE: cache_service.dfy ===
/** The best-effort summary cache (app/services/cache_service.py).

    The Redis store is a map from content hash to summary. A backend failure
    is an oracle flag; a `None` key is refused by the client library, which
    the service treats like any other failure. */
module CacheService {
  import opened Outcomes

  type Cache = map<string, string>

  /** `get_cached_summary`: the value stored under `key`, or `None` on a miss or
      on any failure; it never raises. The returned value may be empty. */
  function GetCachedSummary(cache: Cache, key: Option<string>, backendFails: bool): (r: Option<string>)
    ensures r.Some? <==> !backendFails && key.Some? && key.value in cache
    ensures r.Some? ==> r.value == cache[key.value]
  {
    if backendFails then None
    else match key
      case None => None
      case Some(k) => if k in cache then Some(cache[k]) else None
  }

  /** `set_cached_summary`: stores `summary` under `key`, overwriting any earlier
      value and leaving every other key alone; on failure the cache is left as
      it was. It never raises. */
  function SetCachedSummary(cache: Cache, key: Option<string>, summary: string, backendFails: bool): (c: Cache)
    ensures backendFails || key.None? ==> c == cache
    ensures !backendFails && key.Some? ==>
              c.Keys == cache.Keys + {key.value} && c[key.value] == summary
    ensures forall k :: k in cache && Some(k) != key ==> k in c && c[k] == cache[k]
  {
    if backendFails || key.None? then cache else cache[key.value := summary]
  }

  /** A successful store is seen by the next successful lookup of the same key. */
  lemma SetThenGet(cache: Cache, key: string, summary: string)
    ensures GetCachedSummary(SetCachedSummary(cache, Some(key), summary, false), Some(key), false) == Some(summary)
  {
  }
}

=== FILE: content_fetcher.dfy ===
/** Page fetching for URL jobs (app/services/content_fetcher.py).

    The HTTP GET and the HTML text extraction are one oracle
    `extract(url, i)`: the page text the i-th attempt on `url` extracts, or the
    exception it raised (transport errors and non-2xx statuses included). What
    the model adds is the truncation and the retry around it. */
module ContentFetcher {
  import opened Outcomes
  import Helpers

  const MaxContentLength: nat := 10000
  const RequestTimeoutSeconds: nat := 5

  /** One HTTP request as issued: the URL and the timeout it carries. */
  datatype FetchRequest = FetchRequest(url: string, timeoutSeconds: nat)

  function Request(url: string): FetchRequest {
    FetchRequest(url, RequestTimeoutSeconds)
  }

  /** `content[:MAX_CONTENT_LENGTH]`. */
  function Truncate(text: string): (r: string)
    ensures |r| <= MaxContentLength
    ensures r <= text
    ensures |text| <= MaxContentLength ==> r == text
    ensures |text| > MaxContentLength ==> |r| == MaxContentLength
  {
    if |text| <= MaxContentLength then text else text[..MaxContentLength]
  }

  /** One call of the undecorated `fetch_url_content`: extraction then truncation;
      an exception passes through unchanged. */
  function FetchOnce(url: string, extract: (string, nat) -> Attempt<string>, i: nat): Attempt<string> {
    match extract(url, i)
    case Ok(text) => Ok(Truncate(text))
    case Err(e) => Err(e)
  }

  /** `fetch_url_content` under `generic_retry()`: at most three attempts with
      5-second sleeps after each failure; the first extracted text, truncated,
      or the third attempt's exception, unwrapped. */
  function FetchUrlContent(url: string, extract: (string, nat) -> Attempt<string>): (run: Helpers.RetryRun<string>)
    ensures Helpers.Alternating(run.trace, 0, Helpers.DefaultDelaySeconds)
    ensures |run.trace| <= 2 * Helpers.DefaultMaxAttempts
    ensures run.outcome.Ok? ==>
              var k := |run.trace| / 2;
              && k < Helpers.DefaultMaxAttempts
              && (forall j: nat :: j < k ==> extract(url, j).Err?)
              && extract(url, k).Ok?
              && run.outcome.value == Truncate(extract(url, k).value)
    ensures run.outcome.Ok? ==> |run.outcome.value| <= MaxContentLength
    ensures run.outcome.Ok? <==> exists k: nat :: k < Helpers.DefaultMaxAttempts && extract(url, k).Ok?
    ensures run.outcome.Err? ==>
              && |run.trace| == 2 * Helpers.DefaultMaxAttempts
              && (forall j: nat :: j < Helpers.DefaultMaxAttempts ==> extract(url, j).Err?)
              && run.outcome.error == extract(url, 2).error
  {
    var run := Helpers.GenericRetry(Helpers.DefaultMaxAttempts, Helpers.DefaultDelaySeconds,
                                    (i: nat) => FetchOnce(url, extract, i));
    assert forall j: nat :: FetchOnce(url, extract, j).Err? <==> extract(url, j).Err?;
    run
  }
}

=== FILE: helpers.dfy ===
/** The retry decorators and the content fingerprint (app/utils/helpers.py).

    A decorated function is modelled as an oracle `call: nat -> Attempt<T>`:
    `call(i)` is what the i-th call (counting from 0) returns or raises. A retry
    run reports the final outcome and the trace of calls and sleeps it made. */
module Helpers {
  import opened Outcomes
  import Utf8

  /** `generic_retry()` defaults. */
  const DefaultMaxAttempts: int := 3
  const DefaultDelaySeconds: int := 5

  /** `retry_on_pgdb_exception` configuration. */
  const MaxRetries: nat := 3
  const RetryWaitSeconds: nat := 2

  /** What `raise last_exc` raises when no attempt was made and `last_exc` is still `None`. */
  const RaiseNoneError := TypeError("exceptions must derive from BaseException")

  /** What `time.sleep` raises for a negative duration. */
  const NegativeSleepError := ValueError("sleep length must be non-negative")

  datatype RetryEvent = Called(attempt: nat) | Slept(seconds: int)

  datatype RetryRun<+T> = RetryRun(outcome: Attempt<T>, trace: seq<RetryEvent>)

  /** `trace` alternates calls and sleeps of `delay` seconds, starting with a call,
      and numbers the calls consecutively from `first`. */
  ghost predicate Alternating(trace: seq<RetryEvent>, first: nat, delay: int) {
    forall i :: 0 <= i < |trace| ==> trace[i] == if i % 2 == 0 then Called(first + i / 2) else Slept(delay)
  }

  /** A failed call and its sleep, in front of an alternating trace. */
  lemma AlternatingAfter(trace: seq<RetryEvent>, first: nat, delay: int)
    requires Alternating(trace, first + 1, delay)
    ensures Alternating([Called(first), Slept(delay)] + trace, first, delay)
  {
    var whole := [Called(first), Slept(delay)] + trace;
    forall i | 2 <= i < |whole|
      ensures whole[i] == if i % 2 == 0 then Called(first + i / 2) else Slept(delay)
    {
      assert whole[i] == trace[i - 2];
    }
  }

  /** Every call numbered in [lo, hi) raised. */
  ghost predicate FailsBetween<T>(call: nat -> Attempt<T>, lo: nat, hi: int) {
    forall j: nat :: lo <= j < hi ==> call(j).Err?
  }

  /** `raise last_exc`. */
  function Raise<T>(lastExc: Option<Exception>): (r: Attempt<T>)
    ensures r.Err?
    ensures lastExc.Some? ==> r.error == lastExc.value
  {
    match lastExc
    case Some(e) => Err(e)
    case None => Err(RaiseNoneError)
  }

  /** The `for attempt in range(max_attempts)` loop of `generic_retry`, entered at
      `attempt` with the exception of the previous call in `lastExc`. The
      `time.sleep(delay)` in the handler raises for a negative delay, so then
      the first failed call ends the loop with that error. */
  function GenericRetryFrom<T>(maxAttempts: int, delay: int, call: nat -> Attempt<T>,
                               attempt: nat, lastExc: Option<Exception>): (run: RetryRun<T>)
    ensures Alternating(run.trace, attempt, delay)
    ensures run.outcome.Ok? ==>
              && |run.trace| % 2 == 1
              && attempt + |run.trace| / 2 < maxAttempts
              && FailsBetween(call, attempt, attempt + |run.trace| / 2)
              && run.outcome == call(attempt + |run.trace| / 2)
    ensures run.outcome.Err? && delay >= 0 ==>
              && FailsBetween(call, attempt, maxAttempts)
              && |run.trace| == 2 * (if attempt < maxAttempts then maxAttempts - attempt else 0)
              && run.outcome == (if attempt < maxAttempts then call(maxAttempts - 1) else Raise(lastExc))
    ensures delay < 0 && attempt < maxAttempts && call(attempt).Err? ==>
              run == RetryRun(Err(NegativeSleepError), [Called(attempt)])
    decreases maxAttempts - attempt
  {
    if attempt >= maxAttempts then
      RetryRun(Raise(lastExc), [])
    else
      match call(attempt)
      case Ok(v) => RetryRun(Ok(v), [Called(attempt)])
      case Err(e) =>
        if delay < 0 then RetryRun(Err(NegativeSleepError), [Called(attempt)])
        else
          var rest := GenericRetryFrom(maxAttempts, delay, call, attempt + 1, Some(e));
          AlternatingAfter(rest.trace, attempt, delay);
          RetryRun(rest.outcome, [Called(attempt), Slept(delay)] + rest.trace)
  }

  /** `generic_retry(max_attempts, delay)` applied to `call`: the first successful
      result, after at most `max_attempts` calls, sleeping `delay` after every
      failed call (the last one included); if every call raised, the last
      exception, unwrapped. A negative delay makes the first failed call's
      sleep raise instead. */
  function GenericRetry<T>(maxAttempts: int, delay: int, call: nat -> Attempt<T>): (run: RetryRun<T>)
    ensures Alternating(run.trace, 0, delay)
    ensures delay >= 0 ==> (run.outcome.Ok? <==> exists k: nat :: k < maxAttempts && call(k).Ok?)
    ensures delay < 0 ==> (run.outcome.Ok? <==> 0 < maxAttempts && call(0).Ok?)
    ensures run.outcome.Ok? ==>
              && |run.trace| % 2 == 1
              && |run.trace| / 2 < maxAttempts
              && FailsBetween(call, 0, |run.trace| / 2)
              && run.outcome == call(|run.trace| / 2)
    ensures run.outcome.Err? && maxAttempts > 0 && delay >= 0 ==>
              |run.trace| == 2 * maxAttempts && run.outcome == call(maxAttempts - 1)
    ensures delay < 0 && maxAttempts > 0 && call(0).Err? ==>
              run == RetryRun(Err(NegativeSleepError), [Called(0)])
    ensures maxAttempts <= 0 ==> run == RetryRun(Err(RaiseNoneError), [])
  {
    var run := GenericRetryFrom(maxAttempts, delay, call, 0, None);
    assert run.outcome.Ok? ==> call(|run.trace| / 2).Ok?;
    run
  }

  /** What the default decoration (three attempts, five seconds apart)
      promises, read off the general contract. */
  lemma DefaultRetryFacts<T>(call: nat -> Attempt<T>)
    ensures var run := GenericRetry(DefaultMaxAttempts, DefaultDelaySeconds, call);
            && |run.trace| <= 2 * DefaultMaxAttempts
            && (run.outcome.Ok? ==>
                  && |run.trace| / 2 < DefaultMaxAttempts
                  && FailsBetween(call, 0, |run.trace| / 2)
                  && run.outcome == call(|run.trace| / 2))
            && (run.outcome.Err? ==>
                  |run.trace| == 2 * DefaultMaxAttempts && run.outcome == call(DefaultMaxAttempts - 1))
  {
  }

  /** The decorator's loop written as the Python loop is, with the
      attempt counter and the retained exception. */
  method RunGenericRetry<T>(maxAttempts: int, delay: int, call: nat -> Attempt<T>)
    returns (outcome: Attempt<T>, trace: seq<RetryEvent>)
    ensures RetryRun(outcome, trace) == GenericRetry(maxAttempts, delay, call)
  {
    ghost var whole := GenericRetryFrom(maxAttempts, delay, call, 0, None);
    var lastExc: Option<Exception> := None;
    var attempt: nat := 0;
    trace := [];
    while attempt < maxAttempts
      invariant attempt == 0 <==> lastExc.None?
      invariant |trace| == 2 * attempt
      invariant whole == Resumed(maxAttempts, delay, call, attempt, lastExc, trace)
      decreases maxAttempts - attempt
    {
      var r := call(attempt);
      if r.Ok? {
        RetryStopsAt(maxAttempts, delay, call, attempt, lastExc, trace);
        outcome := r;
        trace := trace + [Called(attempt)];
        return;
      }
      if delay < 0 {
        RetrySleepFails(maxAttempts, delay, call, attempt, lastExc, trace);
        outcome := Err(NegativeSleepError);
        trace := trace + [Called(attempt)];
        return;
      }
      RetryResumesAfter(maxAttempts, delay, call, attempt, lastExc, trace);
      lastExc := Some(r.error);
      trace := trace + [Called(attempt), Slept(delay)];
      attempt := attempt + 1;
    }
    RetryEndsAt(maxAttempts, delay, call, attempt, lastExc, trace);
    outcome := Raise(lastExc);
  }

  /** The whole run, seen from attempt `attempt` with `done` already traced. */
  function Resumed<T>(maxAttempts: int, delay: int, call: nat -> Attempt<T>,
                      attempt: nat, lastExc: Option<Exception>, done: seq<RetryEvent>): RetryRun<T> {
    var rest := GenericRetryFrom(maxAttempts, delay, call, attempt, lastExc);
    RetryRun(rest.outcome, done + rest.trace)
  }

  lemma RetryStopsAt<T>(maxAttempts: int, delay: int, call: nat -> Attempt<T>,
                        attempt: nat, lastExc: Option<Exception>, done: seq<RetryEvent>)
    requires attempt < maxAttempts && call(attempt).Ok?
    ensures Resumed(maxAttempts, delay, call, attempt, lastExc, done) == RetryRun(call(attempt), done + [Called(attempt)])
  {
  }

  lemma RetryResumesAfter<T>(maxAttempts: int, delay: int, call: nat -> Attempt<T>,
                             attempt: nat, lastExc: Option<Exception>, done: seq<RetryEvent>)
    requires attempt < maxAttempts && call(attempt).Err? && delay >= 0
    ensures Resumed(maxAttempts, delay, call, attempt, lastExc, done)
            == Resumed(maxAttempts, delay, call, attempt + 1, Some(call(attempt).error), done + [Called(attempt), Slept(delay)])
  {
    var next := GenericRetryFrom(maxAttempts, delay, call, attempt + 1, Some(call(attempt).error));
    assert done + ([Called(attempt), Slept(delay)] + next.trace) == (done + [Called(attempt), Slept(delay)]) + next.trace;
  }

  lemma RetrySleepFails<T>(maxAttempts: int, delay: int, call: nat -> Attempt<T>,
                           attempt: nat, lastExc: Option<Exception>, done: seq<RetryEvent>)
    requires attempt < maxAttempts && call(attempt).Err? && delay < 0
    ensures Resumed(maxAttempts, delay, call, attempt, lastExc, done)
            == RetryRun(Err(NegativeSleepError), done + [Called(attempt)])
  {
  }

  lemma RetryEndsAt<T>(maxAttempts: int, delay: int, call: nat -> Attempt<T>,
                       attempt: nat, lastExc: Option<Exception>, done: seq<RetryEvent>)
    requires attempt >= maxAttempts
    ensures Resumed(maxAttempts, delay, call, attempt, lastExc, done) == RetryRun(Raise(lastExc), done)
  {
    assert done + [] == done;
  }

  /** The exceptions `retry_on_pgdb_exception` retries. */
  predicate Transient<T>(a: Attempt<T>) {
    a.Err? && a.error.OperationalError?
  }

  /** Every call numbered in [lo, hi) raised an OperationalError. */
  ghost predicate TransientBetween<T>(call: nat -> Attempt<T>, lo: nat, hi: nat) {
    forall j: nat :: lo <= j < hi ==> Transient(call(j))
  }

  /** The `while retries < MAX_RETRIES` loop of `retry_on_pgdb_exception`,
      entered after `retries` calls that raised an OperationalError. */
  function RetryOnPgdbFrom<T>(call: nat -> Attempt<T>, retries: nat): (run: RetryRun<T>)
    requires retries < MaxRetries
    ensures Alternating(run.trace, retries, RetryWaitSeconds)
    ensures |run.trace| % 2 == 1
    ensures retries + |run.trace| / 2 < MaxRetries
    ensures TransientBetween(call, retries, retries + |run.trace| / 2)
    ensures run.outcome == call(retries + |run.trace| / 2)
    ensures retries + |run.trace| / 2 + 1 < MaxRetries ==> !Transient(run.outcome)
    decreases MaxRetries - retries
  {
    match call(retries)
    case Ok(v) => RetryRun(Ok(v), [Called(retries)])
    case Err(e) =>
      if e.OperationalError? && retries + 1 < MaxRetries then
        var rest := RetryOnPgdbFrom(call, retries + 1);
        AlternatingAfter(rest.trace, retries, RetryWaitSeconds);
        RetryRun(rest.outcome, [Called(retries), Slept(RetryWaitSeconds)] + rest.trace)
      else
        RetryRun(Err(e), [Called(retries)])
  }

  /** `retry_on_pgdb_exception` applied to `call`: the call is repeated only while
      it raises an OperationalError, at most MAX_RETRIES times, sleeping between
      calls but never after the last; the result is that of the final call, so
      a non-operational error or the last OperationalError propagates unchanged. */
  function RetryOnPgdb<T>(call: nat -> Attempt<T>): (run: RetryRun<T>)
    ensures Alternating(run.trace, 0, RetryWaitSeconds)
    ensures |run.trace| % 2 == 1 && |run.trace| / 2 < MaxRetries
    ensures TransientBetween(call, 0, |run.trace| / 2)
    ensures run.outcome == call(|run.trace| / 2)
    ensures |run.trace| / 2 + 1 < MaxRetries ==> !Transient(run.outcome)
    ensures call(0).Err? && !Transient(call(0)) ==> run == RetryRun(call(0), [Called(0)])
    ensures Transient(call(0)) && Transient(call(1)) && Transient(call(2)) ==>
              run.outcome == call(2) && |run.trace| == 5
  {
    RetryOnPgdbFrom(call, 0)
  }

  /** The decorator's loop written as the Python loop is, with its counter. */
  method RunRetryOnPgdb<T>(call: nat -> Attempt<T>) returns (outcome: Attempt<T>, trace: seq<RetryEvent>)
    ensures RetryRun(outcome, trace) == RetryOnPgdb(call)
  {
    var retries: nat := 0;
    trace := [];
    while true
      invariant retries < MaxRetries
      invariant |trace| == 2 * retries
      invariant RetryOnPgdb(call) == PgdbResumed(call, retries, trace)
      decreases MaxRetries - retries
    {
      var r := call(retries);
      if !Transient(r) || retries + 1 >= MaxRetries {
        PgdbStopsAt(call, retries, trace);
        outcome := r;
        trace := trace + [Called(retries)];
        return;
      }
      PgdbResumesAfter(call, retries, trace);
      trace := trace + [Called(retries), Slept(RetryWaitSeconds)];
      retries := retries + 1;
    }
  }

  /** The whole run, seen from call `retries` with `done` already traced. */
  function PgdbResumed<T>(call: nat -> Attempt<T>, retries: nat, done: seq<RetryEvent>): RetryRun<T>
    requires retries < MaxRetries
  {
    var rest := RetryOnPgdbFrom(call, retries);
    RetryRun(rest.outcome, done + rest.trace)
  }

  lemma PgdbStopsAt<T>(call: nat -> Attempt<T>, retries: nat, done: seq<RetryEvent>)
    requires retries < MaxRetries
    requires !Transient(call(retries)) || retries + 1 >= MaxRetries
    ensures PgdbResumed(call, retries, done) == RetryRun(call(retries), done + [Called(retries)])
  {
  }

  lemma PgdbResumesAfter<T>(call: nat -> Attempt<T>, retries: nat, done: seq<RetryEvent>)
    requires retries + 1 < MaxRetries && Transient(call(retries))
    ensures PgdbResumed(call, retries, done)
            == PgdbResumed(call, retries + 1, done + [Called(retries), Slept(RetryWaitSeconds)])
  {
    var next := RetryOnPgdbFrom(call, retries + 1);
    assert done + ([Called(retries), Slept(RetryWaitSeconds)] + next.trace)
           == (done + [Called(retries), Slept(RetryWaitSeconds)]) + next.trace;
  }

  predicate IsLowerHexDigit(c: char) {
    '0' <= c <= '9' || 'a' <= c <= 'f'
  }

  /** What `hexdigest()` of a SHA-256 hash returns: 64 lower-case hex digits. */
  type HexDigest = s: string | |s| == 64 && forall i :: 0 <= i < |s| ==> IsLowerHexDigit(s[i])
    witness seq(64, i => '0')

  /** `hash_content`: the SHA-256 hex digest of the UTF-8 encoding of `text`.
      SHA-256 itself is the parameter `sha256`, a deterministic function from
      bytes to digests. */
  function HashContent(sha256: seq<Utf8.byte> -> HexDigest, text: string): (r: HexDigest)
    ensures exists bytes :: Utf8.Decode(bytes) == Some(text) && r == sha256(bytes)
  {
    Utf8.DecodeEncode(text);
    sha256(Utf8.Encode(text))
  }

  /** Two texts with equal fingerprints under an injective-on-these-inputs hash
      are equal, and distinct texts are hashed from distinct byte strings, so
      a fingerprint collision between distinct contents is a SHA-256 collision. */
  lemma FingerprintSeparatesContent(sha256: seq<Utf8.byte> -> HexDigest, a: string, b: string)
    ensures a == b ==> HashContent(sha256, a) == HashContent(sha256, b)
    ensures a != b ==> Utf8.Encode(a) != Utf8.Encode(b)
  {
    if a != b && Utf8.Encode(a) == Utf8.Encode(b) {
      Utf8.DecodeEncode(a);
      Utf8.DecodeEncode(b);
    }
  }
}

=== FILE: models.dfy ===
/** The persisted job record and its two enumerations (app/models.py). */
module Models {
  import opened Outcomes

  /** The four states of a job; `Value` is the string the API reports. */
  datatype JobStatus = Queued | Processing | Completed | Failed {
    function Value(): string {
      match this
      case Queued => "queued"
      case Processing => "processing"
      case Completed => "completed"
      case Failed => "failed"
    }
  }

  /** What a job's `content` holds: raw text, or the URL to fetch. */
  datatype ContentType = Text | Url {
    function Value(): string {
      match this
      case Text => "text"
      case Url => "url"
    }
  }

  type JobId = string

  /** One row of the `jobs` table. Nullable columns are `Option`s; the mandatory
      ones (`contentType`, `content`, `status`, `cached`) are not. `createdAt`
      is a reading of an abstract clock. */
  datatype Job = Job(
    id: JobId,
    contentHash: Option<string>,
    contentType: ContentType,
    content: string,
    summary: Option<string>,
    status: JobStatus,
    cached: bool,
    processingTimeMs: Option<nat>,
    createdAt: nat)

  /** The job store: rows keyed by their primary key. */
  type Db = map<JobId, Job>

  /** Every row is stored under its own id. */
  ghost predicate WellKeyed(db: Db) {
    forall k :: k in db ==> db[k].id == k
  }

  /** A job constructed with only the fields the caller gives; the other
      columns take their declared defaults. */
  function NewJob(id: JobId, contentHash: Option<string>, contentType: ContentType,
                  content: string, status: JobStatus, now: nat): (job: Job)
    ensures job.id == id && job.createdAt == now
    ensures job.contentHash == contentHash && job.contentType == contentType
    ensures job.content == content && job.status == status
    ensures !job.cached && job.summary.None? && job.processingTimeMs.None?
  {
    Job(id, contentHash, contentType, content, None, status, false, None, now)
  }

  /** The status strings are exactly the four the API documents, one per state. */
  lemma StatusValues()
    ensures forall s: JobStatus :: s.Value() in ["queued", "processing", "completed", "failed"]
    ensures forall s: JobStatus, t: JobStatus :: s.Value() == t.Value() ==> s == t
  {
  }

  /** The content-type strings are exactly "text" and "url", one per type. */
  lemma ContentTypeValues()
    ensures forall c: ContentType :: c.Value() in ["text", "url"]
    ensures forall c: ContentType, d: ContentType :: c.Value() == d.Value() ==> c == d
  {
  }
}

=== FILE: outcomes.dfy ===
/** Failure-carrying values shared by every module of the model.

    The Python code signals failure by raising; the model returns an `Attempt`
    instead, and `Exception` names the exception classes the handlers tell apart. */
module Outcomes {

  /** The conventional optional value (Python's `None` or a value). */
  datatype Option<+T> = None | Some(value: T)

  /** The exception classes the core raises, catches or re-raises.
      Only the class matters to a handler; `detail` stands for `str(e)`. */
  datatype Exception =
    | OperationalError(detail: string)  // SQLAlchemy/psycopg2 connectivity error: the one the store retries
    | RequestError(detail: string)      // requests.RequestException: transport failure or non-2xx status
    | TypeError(detail: string)         // what `raise None` turns into
    | ValueError(detail: string)        // raised by URL parsing, and by `time.sleep` for a negative duration
    | OtherError(detail: string)        // anything else (backend errors, integrity errors, ...)

  /** The outcome of one call: a value, or the exception it raised. */
  datatype Attempt<+T> = Ok(value: T) | Err(error: Exception)
}

=== FILE: routes.dfy ===
/** The three HTTP endpoints (app/routes.py): submission with its validation
    and job construction, and the two polling endpoints.

    A request body is reduced to its optional `text` and `url` strings. The
    job store is a map; `write_to_pgdb` is the store-retry decorator over an
    oracle of commit attempts, and a row whose key is already taken fails with
    an integrity error. Dispatch to the worker is an oracle outcome; a
    successful dispatch appends the job id to `enqueued`. */
module Routes {
  import opened Outcomes
  import opened Models
  import Helpers
  import Utf8
  import UrlParse

  datatype Submission = Submission(text: Option<string>, url: Option<string>)

  /** A response: an error with its status code and message, or one of the
      three 200 bodies. */
  datatype Response =
    | ErrorResponse(code: nat, message: string)
    | Submitted(jobId: JobId, status: JobStatus)
    | StatusReport(jobId: JobId, status: JobStatus, createdAt: nat)
    | ResultReport(jobId: JobId, summary: Option<string>, cached: bool,
                   processingTimeMs: Option<nat>, originalUrl: Option<string>)
  {
    function Code(): nat {
      if ErrorResponse? then code else 200
    }
  }

  const NotFound := ErrorResponse(404, "Job not found")
  const NotReady := ErrorResponse(400, "Not ready")

  /** Python truthiness of an optional string: present and non-empty. */
  predicate Truthy(v: Option<string>) {
    v.Some? && v.value != []
  }

  datatype Validation = Rejected(response: Response) | Accepted(contentType: ContentType, content: string)

  /** The checks `submit` makes before touching the store, and the content it
      classifies: exactly one of `text` and `url` must be truthy, and a URL must
      have a scheme and an authority. */
  function Validate(sub: Submission): (v: Validation)
    ensures v.Accepted? <==>
              && Truthy(sub.text) != Truthy(sub.url)
              && (Truthy(sub.url) ==> UrlParse.HasSchemeAndNetloc(sub.url.value))
    ensures v.Accepted? ==> (v.contentType == Url <==> Truthy(sub.url)) && v.content != []
    ensures v.Accepted? && v.contentType == Url ==> v.content == sub.url.value
    ensures v.Accepted? && v.contentType == Text ==> v.content == sub.text.value
    ensures v.Rejected? ==> v.response.ErrorResponse? && v.response.code in {400, 500}
    ensures v.Rejected? && v.response.code == 500 <==>
              Truthy(sub.url) && !Truthy(sub.text) && UrlParse.UrlParse(sub.url.value).Err?
  {
    if Truthy(sub.text) && Truthy(sub.url) then
      Rejected(ErrorResponse(400, "Provide 'text' or 'url', not both"))
    else if !Truthy(sub.text) && !Truthy(sub.url) then
      Rejected(ErrorResponse(400, "Provide either 'text' or 'url'"))
    else if Truthy(sub.url) then
      match UrlParse.UrlParse(sub.url.value)
      case Err(e) => Rejected(ErrorResponse(500, e.detail))
      case Ok(parts) =>
        if parts.scheme == [] || parts.netloc == [] then Rejected(ErrorResponse(400, "Invalid URL format"))
        else Accepted(Url, sub.url.value)
    else
      Accepted(Text, sub.text.value)
  }

  /** Everything `submit` consults besides the store: SHA-256, the id the row
      defaults to, the clock, the store's commit attempts and the dispatch. */
  datatype SubmitEnv = SubmitEnv(
    sha256: seq<Utf8.byte> -> Helpers.HexDigest,
    newId: JobId,
    now: nat,
    write: nat -> Attempt<()>,
    enqueue: Attempt<()>)

  datatype SubmitRun = SubmitRun(response: Response, db: Db, enqueued: seq<JobId>)

  const DuplicateKeyError := OtherError("duplicate key value violates unique constraint")

  /** One attempt of `session.add(job); session.commit()` for a new row `id`. */
  function InsertAttempt(db: Db, id: JobId, write: nat -> Attempt<()>, i: nat): Attempt<()> {
    if write(i).Ok? && id in db then Err(DuplicateKeyError) else write(i)
  }

  /** `write_to_pgdb(job)` for the new row: at most three attempts, retried
      only after an OperationalError; a taken key always fails. */
  function WriteJob(db: Db, id: JobId, write: nat -> Attempt<()>): (run: Helpers.RetryRun<()>)
    ensures |run.trace| / 2 < Helpers.MaxRetries
    ensures forall j: nat :: j < |run.trace| / 2 ==> Helpers.Transient(write(j))
    ensures id in db ==> run.outcome.Err?
    ensures id !in db ==> run.outcome == write(|run.trace| / 2)
    ensures |run.trace| / 2 + 1 < Helpers.MaxRetries ==> !Helpers.Transient(run.outcome)
  {
    Helpers.RetryOnPgdb((i: nat) => InsertAttempt(db, id, write, i))
  }

  /** The row `submit` creates for accepted content. */
  function CreatedJob(contentType: ContentType, content: string, env: SubmitEnv): (job: Job)
    ensures job.id == env.newId && job.status == Queued && !job.cached
    ensures job.contentHash == Some(Helpers.HashContent(env.sha256, content))
    ensures job.contentType == contentType && job.content == content
    ensures job.summary.None? && job.processingTimeMs.None? && job.createdAt == env.now
  {
    NewJob(env.newId, Some(Helpers.HashContent(env.sha256, content)), contentType, content, Queued, env.now)
  }

  /** `submit`. */
  function Submit(db: Db, sub: Submission, env: SubmitEnv): (run: SubmitRun)
    ensures Validate(sub).Rejected? ==> run == SubmitRun(Validate(sub).response, db, [])
    ensures run.response.Code() == 400 ==> run.db == db && run.enqueued == []
    ensures run.response.Submitted? <==>
              && Validate(sub).Accepted?
              && env.newId !in db
              && WriteJob(db, env.newId, env.write).outcome.Ok?
              && env.enqueue.Ok?
    ensures run.response.Submitted? ==>
              && run.response == Submitted(env.newId, Queued)
              && run.enqueued == [env.newId]
    ensures run.db == db || (env.newId !in db && Validate(sub).Accepted? &&
              run.db == db[env.newId := CreatedJob(Validate(sub).contentType, Validate(sub).content, env)])
    ensures run.db != db ==> run.response.Submitted? || run.response.Code() == 500
    ensures run.enqueued == [] || run.enqueued == [env.newId]
  {
    match Validate(sub)
    case Rejected(response) => SubmitRun(response, db, [])
    case Accepted(contentType, content) =>
      var job := CreatedJob(contentType, content, env);
      var write := WriteJob(db, job.id, env.write);
      assert write.outcome == InsertAttempt(db, job.id, env.write, |write.trace| / 2);
      match write.outcome
      case Err(e) => SubmitRun(ErrorResponse(500, "Job creation error: " + e.detail), db, [])
      case Ok(_) =>
        var db' := db[job.id := job];
        match env.enqueue
        case Err(e) => SubmitRun(ErrorResponse(500, "Job processing error: " + e.detail), db', [])
        case Ok(_) => SubmitRun(Submitted(job.id, job.status), db', [job.id])
  }

  /** `status`: not found for an unknown id, otherwise the row's id, status and
      creation time. */
  function Status(db: Db, jobId: JobId): (r: Response)
    ensures r.Code() == 404 <==> jobId !in db
    ensures r.ErrorResponse? ==> r == NotFound
    ensures jobId in db ==>
              r.StatusReport? && r.jobId == db[jobId].id && r.status == db[jobId].status
              && r.createdAt == db[jobId].createdAt
  {
    if jobId !in db then NotFound
    else
      var job := db[jobId];
      StatusReport(job.id, job.status, job.createdAt)
  }

  /** `result`: not found for an unknown id; not ready for any status but
      COMPLETED, FAILED included; otherwise the payload, whose `originalUrl`
      is present exactly for URL jobs and is then the job's content. */
  function Result(db: Db, jobId: JobId): (r: Response)
    ensures r.Code() == 404 <==> jobId !in db
    ensures r.Code() == 400 <==> jobId in db && db[jobId].status != Completed
    ensures r.ErrorResponse? ==> r == NotFound || r == NotReady
    ensures r.ResultReport? <==> jobId in db && db[jobId].status == Completed
    ensures r.ResultReport? ==>
              var job := db[jobId];
              && r.jobId == job.id && r.summary == job.summary && r.cached == job.cached
              && r.processingTimeMs == job.processingTimeMs
              && (r.originalUrl.Some? <==> job.contentType == Url)
              && (r.originalUrl.Some? ==> r.originalUrl.value == job.content)
  {
    if jobId !in db then NotFound
    else
      var job := db[jobId];
      if job.status != Completed then NotReady
      else
        ResultReport(job.id, job.summary, job.cached, job.processingTimeMs,
                     if job.contentType == Url then Some(job.content) else None)
  }

  /** A submission that comes back 200 can be polled at once: its row is
      queued, carries the submitted content and its fingerprint, and its
      result is not ready yet. */
  lemma SubmittedJobIsQueued(db: Db, sub: Submission, env: SubmitEnv)
    requires Submit(db, sub, env).response.Submitted?
    ensures var run := Submit(db, sub, env);
            && Status(run.db, env.newId) == StatusReport(env.newId, Queued, env.now)
            && Result(run.db, env.newId) == NotReady
            && run.db[env.newId].content == Validate(sub).content
            && run.db[env.newId].contentHash == Some(Helpers.HashContent(env.sha256, Validate(sub).content))
            && (forall k :: k in db ==> k in run.db && run.db[k] == db[k])
  {
  }

  /** Submission never breaks the keying of the store, and never overwrites a row. */
  lemma SubmitKeepsRows(db: Db, sub: Submission, env: SubmitEnv)
    requires WellKeyed(db)
    ensures var run := Submit(db, sub, env);
            && WellKeyed(run.db)
            && (forall k :: k in db ==> k in run.db && run.db[k] == db[k])
  {
  }
}

=== FILE: scenarios.dfy ===
/** End-to-end runs of the service: a submission followed by the worker run
    it dispatches, and a second job served from the cache the first filled. */
module Scenarios {
  import opened Outcomes
  import opened Models
  import opened Worker
  import opened WorkerProperties
  import Routes
  import Helpers
  import UrlParse
  import Summarizer

  /** "not-a-url" splits into no scheme and no authority. */
  lemma NotAUrlSplit()
    ensures UrlParse.UrlParse("not-a-url") == Ok(UrlParse.SplitResult([], []))
  {
    var url := "not-a-url";
    assert forall k :: 0 <= k < |url| ==> url[k] != ':' && !UrlParse.IsUnsafe(url[k]);
    UrlParse.PlainWordSplit(url);
  }

  /** "not-a-url" has no scheme, so it is refused with 400 before any row exists. */
  lemma NotAUrlIsRefused(db: Db, env: Routes.SubmitEnv)
    ensures Routes.Submit(db, Routes.Submission(None, Some("not-a-url")), env)
            == Routes.SubmitRun(Routes.ErrorResponse(400, "Invalid URL format"), db, [])
  {
    NotAUrlSplit();
  }

  /** A body with both fields set is refused with 400 and changes nothing. */
  lemma BothFieldsAreRefused(db: Db, text: string, url: string, env: Routes.SubmitEnv)
    requires text != [] && url != []
    ensures Routes.Submit(db, Routes.Submission(Some(text), Some(url)), env)
            == Routes.SubmitRun(Routes.ErrorResponse(400, "Provide 'text' or 'url', not both"), db, [])
  {
  }

  /** A row insert whose first attempt succeeds on a free id succeeds. */
  lemma FirstWriteSucceeds(db: Db, id: JobId, write: nat -> Attempt<()>)
    requires id !in db && write(0).Ok?
    ensures Routes.WriteJob(db, id, write).outcome.Ok?
  {
    var run := Routes.WriteJob(db, id, write);
    assert Routes.InsertAttempt(db, id, write, 0).Ok?;
    assert |run.trace| / 2 == 0;
  }

  /** A text submission on a free id whose first write and dispatch succeed. */
  lemma TextIsSubmitted(db: Db, text: string, env: Routes.SubmitEnv)
    requires text != [] && env.newId !in db
    requires env.write(0).Ok? && env.enqueue.Ok?
    ensures Routes.Submit(db, Routes.Submission(Some(text), None), env)
            == Routes.SubmitRun(Routes.Submitted(env.newId, Queued), db[env.newId := Routes.CreatedJob(Text, text, env)], [env.newId])
  {
    FirstWriteSucceeds(db, env.newId, env.write);
  }

  /** How a text job with id `id`, created at `now`, looks once the worker
      has completed it with `summary` on a cold cache. */
  ghost predicate TextJobDone(run: WorkerRun, id: JobId, now: nat, summary: string, s: Script, cache: Cache, key: string) {
    && run.outcome == Returned
    && Routes.Status(run.db, id) == Routes.StatusReport(id, Completed, now)
    && Routes.Result(run.db, id) == Routes.ResultReport(id, Some(summary), false, Some(s.elapsedMs), None)
    && (!s.cacheSetFails ==> run.cache == cache[key := summary])
  }

  lemma QueuedTextCompletes(db: Db, cache: Cache, text: string, env: Routes.SubmitEnv, s: Script)
    requires env.newId in db && db[env.newId] == Routes.CreatedJob(Text, text, env)
    requires CacheProbe(cache, Some(Helpers.HashContent(env.sha256, text)), s.cacheGetFails).None?
    requires s.commit(0).Ok? && s.commit(1).Ok?
    requires Summarizer.Summarize(text, s.reply).outcome.Ok?
    ensures TextJobDone(ProcessJob(db, cache, env.newId, s), env.newId, env.now,
                        Summarizer.Summarize(text, s.reply).outcome.value, s, cache, Helpers.HashContent(env.sha256, text))
  {
    var job := db[env.newId];
    assert ResolveContent(job, s).outcome == Ok(text);
    assert SummaryOf(job, s) == Some(Summarizer.Summarize(text, s.reply).outcome.value);
    CommitsAtOnce(db, job, s, SummaryOf(job, s).value);
    MissCompletes(db, cache, env.newId, s);
    CompletedTextReports(ProcessJob(db, cache, env.newId, s), db, cache, job, s, SummaryOf(job, s).value, 1);
  }

  /** With the first two commit attempts persisting, the PROCESSING commit and
      the COMPLETED commit each succeed at once. */
  lemma CommitsAtOnce(db: Db, job: Job, s: Script, summary: string)
    requires s.commit(0).Ok? && s.commit(1).Ok?
    ensures Marked(db, job, s).outcome.Ok? && Marked(db, job, s).attempts == 1
    ensures Saved(db, job, s, summary).outcome.Ok?
  {
    CommitFirstOk(db, job.(status := Processing, cached := false), s, 0);
    CommitFirstOk(Marked(db, job, s).db, Done(job, summary, s), s, 1);
  }

  /** What status and result report for a completed text job. */
  lemma CompletedTextReports(run: WorkerRun, db: Db, cache: Cache, job: Job, s: Script, summary: string, used: nat)
    requires job.contentType == Text && job.contentHash.Some?
    requires CompletedWithSummary(run, db, cache, job, s, summary, used)
    ensures TextJobDone(run, job.id, job.createdAt, summary, s, cache, job.contentHash.value)
  {
  }

  /** A text submission, then the worker run it dispatches with every service
      working and a cold cache: the job is polled QUEUED after submission and
      COMPLETED afterwards, with the summary, not cached, and no URL. */
  lemma TextJobLifecycle(db: Db, cache: Cache, text: string, env: Routes.SubmitEnv, s: Script)
    requires text != [] && env.newId !in db
    requires env.write(0).Ok? && env.enqueue.Ok?
    requires CacheProbe(cache, Some(Helpers.HashContent(env.sha256, text)), s.cacheGetFails).None?
    requires s.commit(0).Ok? && s.commit(1).Ok?
    requires Summarizer.Summarize(text, s.reply).outcome.Ok?
    ensures var sub := Routes.Submit(db, Routes.Submission(Some(text), None), env);
            && sub.response == Routes.Submitted(env.newId, Queued)
            && sub.enqueued == [env.newId]
            && Routes.Status(sub.db, env.newId) == Routes.StatusReport(env.newId, Queued, env.now)
            && Routes.Result(sub.db, env.newId) == Routes.NotReady
            && TextJobDone(ProcessJob(sub.db, cache, env.newId, s), env.newId, env.now,
                           Summarizer.Summarize(text, s.reply).outcome.value, s, cache, Helpers.HashContent(env.sha256, text))
  {
    TextIsSubmitted(db, text, env);
    QueuedTextCompletes(db[env.newId := Routes.CreatedJob(Text, text, env)], cache, text, env, s);
  }

  /** The run completed the job from the cache with `summary`, flagged cached,
      without fetching or summarising. */
  ghost predicate ServedFromCache(run: WorkerRun, summary: string) {
    && run.job.Some? && run.job.value.cached
    && run.job.value.status == Completed
    && run.job.value.summary == Some(summary)
    && (forall i :: 0 <= i < |run.effects| ==> !IsExternal(run.effects[i]))
  }

  lemma HitServes(db: Db, cache: Cache, jobId: JobId, s: Script, summary: string)
    requires jobId in db && db[jobId].contentHash.Some? && !s.cacheGetFails
    requires db[jobId].contentHash.value in cache && cache[db[jobId].contentHash.value] == summary
    requires summary != []
    ensures ServedFromCache(ProcessJob(db, cache, jobId, s), summary)
  {
    CacheHitCompletes(db, cache, jobId, s);
  }

  /** Two jobs with the same content share the cache: once the first has
      completed on a miss with a non-empty summary, after however many commit
      retries, and the cache accepted the set, the second completes from
      the cache with that summary, flagged cached, with no fetch and no
      summarisation. */
  lemma SecondJobHitsCache(db: Db, cache: Cache, first: JobId, second: JobId, s1: Script, s2: Script)
    requires WellKeyed(db) && first in db && second in db && first != second
    requires db[first].contentHash.Some? && db[second].contentHash == db[first].contentHash
    requires CacheProbe(cache, db[first].contentHash, s1.cacheGetFails).None?
    requires Marked(db, db[first], s1).outcome.Ok? && !s1.cacheSetFails
    requires SummaryOf(db[first], s1).Some? && SummaryOf(db[first], s1).value != []
    requires Saved(db, db[first], s1, SummaryOf(db[first], s1).value).outcome.Ok?
    requires !s2.cacheGetFails
    ensures var run1 := ProcessJob(db, cache, first, s1);
            ServedFromCache(ProcessJob(run1.db, run1.cache, second, s2), SummaryOf(db[first], s1).value)
  {
    var job1 := db[first];
    var summary := SummaryOf(job1, s1).value;
    var run1 := ProcessJob(db, cache, first, s1);
    MissCompletes(db, cache, first, s1);
    assert run1.db[second] == db[second];
    HitServes(run1.db, run1.cache, second, s2, summary);
  }

  /** A language model that fails all three attempts leaves the job FAILED
      once the worker has run: polling reports FAILED and the result stays
      not ready. */
  lemma SummariserOutage(db: Db, cache: Cache, jobId: JobId, s: Script)
    requires WellKeyed(db) && jobId in db && db[jobId].contentType == Text
    requires CacheProbe(cache, db[jobId].contentHash, s.cacheGetFails).None?
    requires s.commit(0).Ok? && s.commit(1).Ok?
    requires forall i: nat :: i < 3 ==> s.reply(db[jobId].content, i).Err?
    ensures var run := ProcessJob(db, cache, jobId, s);
            && Routes.Status(run.db, jobId) == Routes.StatusReport(jobId, Failed, db[jobId].createdAt)
            && Routes.Result(run.db, jobId) == Routes.NotReady
            && run.cache == cache
  {
    var job := db[jobId];
    CommitFirstOk(db, job.(status := Processing, cached := false), s, 0);
    CommitFirstOk(db[jobId := job.(status := Processing, cached := false)],
                  job.(status := Failed, cached := false), s, 1);
    StepFailureFails(db, cache, jobId, s);
  }
}

=== FILE: summarizer.dfy ===
/** Summarisation through the language model (app/services/summarizer.py).

    The chat-completion call is an oracle `reply(text, i)`: the message content
    of the i-th attempt's first choice (which may be missing), or the exception
    the attempt raised. What the model adds is the post-processing of the reply
    and the retry around it. */
module Summarizer {
  import opened Outcomes
  import Helpers

  const Instruction := "Summarize the following text"
  const LlmTimeoutSeconds: nat := 20

  /** One chat request as issued: the fixed system instruction, the user text
      and the timeout. */
  datatype ChatRequest = ChatRequest(instruction: string, text: string, timeoutSeconds: nat)

  function Request(text: string): ChatRequest {
    ChatRequest(Instruction, text, LlmTimeoutSeconds)
  }

  /** Python's `str.isspace()`: bidirectional class WS, B or S, or category Zs. */
  predicate IsSpace(c: char) {
    var cp := c as int;
    || 0x09 <= cp <= 0x0D || 0x1C <= cp <= 0x20 || cp == 0x85 || cp == 0xA0 || cp == 0x1680
    || 0x2000 <= cp <= 0x200A || cp == 0x2028 || cp == 0x2029 || cp == 0x202F || cp == 0x205F
    || cp == 0x3000
  }

  ghost predicate AllSpace(s: string) {
    forall i :: 0 <= i < |s| ==> IsSpace(s[i])
  }

  function LStrip(s: string): (r: string)
    ensures |r| <= |s| && r == s[|s| - |r|..]
    ensures AllSpace(s[..|s| - |r|])
    ensures r == [] || !IsSpace(r[0])
  {
    if s != [] && IsSpace(s[0]) then
      var r := LStrip(s[1..]);
      assert s[..|s| - |r|] == [s[0]] + s[1..][..|s| - 1 - |r|];
      r
    else s
  }

  function RStrip(s: string): (r: string)
    ensures |r| <= |s| && r == s[..|r|]
    ensures AllSpace(s[|r|..])
    ensures r == [] || !IsSpace(r[|r| - 1])
  {
    if s != [] && IsSpace(s[|s| - 1]) then
      var r := RStrip(s[..|s| - 1]);
      assert s[|r|..] == s[..|s| - 1][|r|..] + [s[|s| - 1]];
      r
    else s
  }

  /** `r` is `s` with its leading and trailing whitespace removed: a slice of `s`
      preceded and followed only by whitespace, and neither starting nor ending
      with whitespace itself. */
  ghost predicate StrippedOf(r: string, s: string) {
    exists i :: 0 <= i <= |s| - |r| && SlicedAt(r, s, i)
  }

  ghost predicate SlicedAt(r: string, s: string, i: int) {
    && 0 <= i <= |s| - |r|
    && r == s[i..i + |r|]
    && AllSpace(s[..i]) && AllSpace(s[i + |r|..])
    && (r == [] || (!IsSpace(r[0]) && !IsSpace(r[|r| - 1])))
  }

  /** `str.strip()`. */
  function Strip(s: string): (r: string)
    ensures StrippedOf(r, s)
  {
    var l := LStrip(s);
    StripParts(s, l, RStrip(l));
    RStrip(l)
  }

  /** Stripping the left of `s`, then the right of what is left, slices `s`. */
  lemma StripParts(s: string, l: string, r: string)
    requires |l| <= |s| && l == s[|s| - |l|..] && AllSpace(s[..|s| - |l|]) && (l == [] || !IsSpace(l[0]))
    requires |r| <= |l| && r == l[..|r|] && AllSpace(l[|r|..]) && (r == [] || !IsSpace(r[|r| - 1]))
    ensures SlicedAt(r, s, |s| - |l|)
  {
    var i := |s| - |l|;
    assert r == s[i..i + |r|];
    assert s[i + |r|..] == l[|r|..];
    assert r != [] ==> r[0] == l[0];
  }

  /** What `SlicedAt` says, character by character. */
  lemma SlicedAtFacts(r: string, s: string, i: int)
    requires SlicedAt(r, s, i)
    ensures forall k :: 0 <= k < i ==> IsSpace(s[k])
    ensures forall k :: i + |r| <= k < |s| ==> IsSpace(s[k])
    ensures r != [] ==> !IsSpace(s[i]) && !IsSpace(s[i + |r| - 1])
  {
    assert forall k :: 0 <= k < i ==> s[..i][k] == s[k];
    assert forall k :: i + |r| <= k < |s| ==> s[i + |r|..][k - i - |r|] == s[k];
  }

  /** The stripped form is unique: any string that is `s` stripped is `Strip(s)`. */
  lemma StrippedOfUnique(r: string, r': string, s: string)
    requires StrippedOf(r, s) && StrippedOf(r', s)
    ensures r == r'
  {
    var i :| 0 <= i <= |s| - |r| && SlicedAt(r, s, i);
    var i' :| 0 <= i' <= |s| - |r'| && SlicedAt(r', s, i');
    SlicedAtFacts(r, s, i);
    SlicedAtFacts(r', s, i');
    if r != [] && r' != [] {
      assert i == i';
      assert |r| == |r'|;
    }
  }

  /** Stripping twice strips nothing more. */
  lemma StripIdempotent(s: string)
    ensures Strip(Strip(s)) == Strip(s)
  {
    var r := Strip(s);
    assert SlicedAt(r, r, 0);
    StrippedOfUnique(Strip(r), r, r);
  }

  /** Neither starts nor ends with whitespace. */
  predicate Trimmed(s: string) {
    s == [] || (!IsSpace(s[0]) && !IsSpace(s[|s| - 1]))
  }

  /** Whatever the reply, the summary made of it is trimmed. */
  lemma ReplySummaryTrimmed(content: Option<string>)
    ensures Trimmed(SummaryFromReply(content))
  {
    var v := SummaryFromReply(content);
    if content.Some? {
      var i :| 0 <= i <= |content.value| - |v| && SlicedAt(v, content.value, i);
    }
  }

  /** `content.strip() if content else ""`: a missing or empty reply gives the
      empty summary; otherwise the reply without surrounding whitespace. */
  function SummaryFromReply(content: Option<string>): (summary: string)
    ensures content.None? || content.value == [] ==> summary == []
    ensures content.Some? ==> StrippedOf(summary, content.value)
  {
    match content
    case None => []
    case Some(c) =>
      if c == [] then
        assert SlicedAt([], c, 0);
        []
      else Strip(c)
  }

  /** One call of the undecorated `summarize`: the reply, post-processed; a
      backend exception passes through unchanged. */
  function SummarizeOnce(text: string, reply: (string, nat) -> Attempt<Option<string>>, i: nat): Attempt<string> {
    match reply(text, i)
    case Ok(content) => Ok(SummaryFromReply(content))
    case Err(e) => Err(e)
  }

  /** The decorated call, attempt by attempt. */
  function Attempts(text: string, reply: (string, nat) -> Attempt<Option<string>>): nat -> Attempt<string> {
    (i: nat) => SummarizeOnce(text, reply, i)
  }

  /** `summarize` under `generic_retry()`: at most three attempts with 5-second
      sleeps after each failure; the first reply, post-processed, or the third
      attempt's exception, unwrapped. */
  function Summarize(text: string, reply: (string, nat) -> Attempt<Option<string>>): (run: Helpers.RetryRun<string>)
    ensures Helpers.Alternating(run.trace, 0, Helpers.DefaultDelaySeconds)
    ensures |run.trace| <= 2 * Helpers.DefaultMaxAttempts
    ensures run.outcome.Ok? ==> SummarisedAt(run, text, reply, |run.trace| / 2)
    ensures run.outcome.Ok? ==> Trimmed(run.outcome.value)
    ensures run.outcome.Ok? <==> exists k: nat :: k < Helpers.DefaultMaxAttempts && reply(text, k).Ok?
    ensures run.outcome.Err? ==>
              && |run.trace| == 2 * Helpers.DefaultMaxAttempts
              && (forall j: nat :: j < Helpers.DefaultMaxAttempts ==> reply(text, j).Err?)
              && run.outcome.error == reply(text, 2).error
  {
    var run := Helpers.GenericRetry(Helpers.DefaultMaxAttempts, Helpers.DefaultDelaySeconds, Attempts(text, reply));
    Helpers.DefaultRetryFacts(Attempts(text, reply));
    if run.outcome.Ok? then
      SummarisedAtAttempt(run, text, reply);
      run
    else
      run
  }

  /** The run succeeded on attempt `k` of three, every earlier attempt having
      raised, with the reply of attempt `k` post-processed. */
  ghost predicate SummarisedAt(run: Helpers.RetryRun<string>, text: string, reply: (string, nat) -> Attempt<Option<string>>, k: nat) {
    && k < Helpers.DefaultMaxAttempts
    && (forall j: nat :: j < k ==> reply(text, j).Err?)
    && reply(text, k).Ok?
    && run.outcome == Ok(SummaryFromReply(reply(text, k).value))
    && Trimmed(run.outcome.value)
  }

  lemma SummarisedAtAttempt(run: Helpers.RetryRun<string>, text: string, reply: (string, nat) -> Attempt<Option<string>>)
    requires |run.trace| / 2 < Helpers.DefaultMaxAttempts
    requires Helpers.FailsBetween(Attempts(text, reply), 0, |run.trace| / 2)
    requires run.outcome == Attempts(text, reply)(|run.trace| / 2) && run.outcome.Ok?
    ensures SummarisedAt(run, text, reply, |run.trace| / 2)
  {
    var k := |run.trace| / 2;
    forall j: nat | j < k
      ensures reply(text, j).Err?
    {
      assert Attempts(text, reply)(j).Err?;
    }
    ReplySummaryTrimmed(reply(text, k).value);
  }
}

=== FILE: url_parse.dfy ===
/** The two components of a URL that submission validation reads: the scheme
    and the network authority (section 3 of RFC 3986), split the way CPython's
    `urllib.parse.urlsplit` (which `urlparse` calls) splits them.

    The split first drops leading C0 controls and spaces and removes every tab,
    CR and LF. The scheme is the text before the first ':' when that text is
    non-empty, starts with an ASCII letter and holds only letters, digits,
    '+', '-' and '.'; it is lower-cased. The authority follows a "//" that
    comes right after the scheme (or opens the URL) and runs up to the next
    '/', '?' or '#'. An authority with a '[' but no ']', or the reverse, is
    rejected with a ValueError. */
module UrlParse {
  import opened Outcomes

  datatype SplitResult = SplitResult(scheme: string, netloc: string)

  predicate IsC0OrSpace(c: char) { (c as int) <= 0x20 }

  predicate IsUnsafe(c: char) { c == '\t' || c == '\r' || c == '\n' }

  predicate IsAsciiLetter(c: char) { 'a' <= c <= 'z' || 'A' <= c <= 'Z' }

  predicate IsSchemeChar(c: char) {
    IsAsciiLetter(c) || '0' <= c <= '9' || c == '+' || c == '-' || c == '.'
  }

  /** The characters that end an authority. */
  predicate IsDelimiter(c: char) { c == '/' || c == '?' || c == '#' }

  /** `s` without its longest prefix of C0 controls and spaces. */
  function LStripC0(s: string): (r: string)
    ensures |r| <= |s| && r == s[|s| - |r|..]
    ensures forall k :: 0 <= k < |s| - |r| ==> IsC0OrSpace(s[k])
    ensures r == [] || !IsC0OrSpace(r[0])
  {
    if s != [] && IsC0OrSpace(s[0]) then LStripC0(s[1..]) else s
  }

  /** `s` with every tab, CR and LF removed and every other character kept;
      `RemoveUnsafeAppend` shows it keeps their order. */
  function RemoveUnsafe(s: string): (r: string)
    ensures |r| <= |s|
    ensures forall k :: 0 <= k < |r| ==> !IsUnsafe(r[k]) && r[k] in s
    ensures forall k :: 0 <= k < |s| && !IsUnsafe(s[k]) ==> s[k] in r
  {
    if s == [] then []
    else if IsUnsafe(s[0]) then RemoveUnsafe(s[1..])
    else [s[0]] + RemoveUnsafe(s[1..])
  }

  /** Removal works piecewise, so the kept characters stay in order. */
  lemma {:induction false} RemoveUnsafeAppend(a: string, b: string)
    ensures RemoveUnsafe(a + b) == RemoveUnsafe(a) + RemoveUnsafe(b)
    decreases |a|
  {
    if a != [] {
      assert (a + b)[1..] == a[1..] + b;
      RemoveUnsafeAppend(a[1..], b);
    } else {
      assert a + b == b;
    }
  }

  /** The URL after the clean-up that precedes splitting. */
  function Clean(url: string): string {
    RemoveUnsafe(LStripC0(url))
  }

  /** `s.find(c)`: the first index of `c`, or -1. */
  function Find(s: string, c: char): (r: int)
    ensures -1 <= r < |s|
    ensures r == -1 ==> forall k :: 0 <= k < |s| ==> s[k] != c
    ensures r >= 0 ==> s[r] == c && forall k :: 0 <= k < r ==> s[k] != c
  {
    if s == [] then -1
    else if s[0] == c then 0
    else
      var r := Find(s[1..], c);
      if r == -1 then -1 else r + 1
  }

  /** The first index at or after `from` holding a delimiter, or |s|. */
  function DelimiterFrom(s: string, from: nat): (r: nat)
    requires from <= |s|
    ensures from <= r <= |s|
    ensures forall k :: from <= k < r ==> !IsDelimiter(s[k])
    ensures r < |s| ==> IsDelimiter(s[r])
    decreases |s| - from
  {
    if from == |s| || IsDelimiter(s[from]) then from else DelimiterFrom(s, from + 1)
  }

  function Lower(s: string): (r: string)
    ensures |r| == |s|
  {
    if s == [] then []
    else [if 'A' <= s[0] <= 'Z' then (s[0] as int + 32) as char else s[0]] + Lower(s[1..])
  }

  predicate AllSchemeChars(s: string) {
    forall k :: 0 <= k < |s| ==> IsSchemeChar(s[k])
  }

  predicate Unbalanced(netloc: string) {
    ('[' in netloc) != (']' in netloc)
  }

  /** The cleaned URL `u` opens with a scheme: a letter, then scheme
      characters, up to the first ':'. */
  predicate HasScheme(u: string) {
    var i := Find(u, ':');
    i > 0 && IsAsciiLetter(u[0]) && AllSchemeChars(u[..i])
  }

  /** The scheme `urlsplit` reports: the text before the first ':', lower-cased,
      when it is a scheme, and otherwise none. */
  function SchemeOf(u: string): (r: string)
    ensures r != [] <==> HasScheme(u)
    ensures r != [] ==> |r| == Find(u, ':') && r == Lower(u[..Find(u, ':')])
  {
    if HasScheme(u) then Lower(u[..Find(u, ':')]) else []
  }

  /** What follows the scheme and its ':', or the whole text without a scheme. */
  function AfterScheme(u: string): (r: string)
    ensures HasScheme(u) ==> r == u[Find(u, ':') + 1..]
    ensures !HasScheme(u) ==> r == u
  {
    if HasScheme(u) then u[Find(u, ':') + 1..] else u
  }

  /** `urlparse(url)`, reduced to its scheme and authority: the scheme as
      `SchemeOf` reads it, and after a leading "//" the authority up to the
      next delimiter, whose unbalanced brackets are the one error. */
  function UrlParse(url: string): (r: Attempt<SplitResult>)
    ensures r.Err? ==> r.error == ValueError("Invalid IPv6 URL")
    ensures r.Ok? && r.value.scheme != [] ==> Find(Clean(url), ':') == |r.value.scheme|
    ensures Find(Clean(url), ':') <= 0 ==> r.Err? || r.value.scheme == []
    ensures r.Ok? ==> r.value.scheme == SchemeOf(Clean(url))
    ensures r.Ok? ==> !Unbalanced(r.value.netloc)
    ensures r.Ok? ==> forall k :: 0 <= k < |r.value.netloc| ==> !IsDelimiter(r.value.netloc[k])
    ensures var rest := AfterScheme(Clean(url));
            |rest| >= 2 && rest[..2] == "//" ==>
              var n := rest[2..DelimiterFrom(rest, 2)];
              (r.Err? <==> Unbalanced(n)) && (r.Ok? ==> r.value.netloc == n)
    ensures var rest := AfterScheme(Clean(url));
            !(|rest| >= 2 && rest[..2] == "//") ==> r.Ok? && r.value.netloc == []
  {
    var u := Clean(url);
    SplitAuthority(SchemeOf(u), AfterScheme(u))
  }

  /** The authority part of `urlsplit`: after a leading "//", everything up to
      the next delimiter, refused when its brackets do not pair up. */
  function SplitAuthority(scheme: string, rest: string): (r: Attempt<SplitResult>)
    ensures r.Err? ==> r.error == ValueError("Invalid IPv6 URL")
    ensures r.Ok? ==> r.value.scheme == scheme && !Unbalanced(r.value.netloc)
    ensures r.Ok? ==> forall k :: 0 <= k < |r.value.netloc| ==> !IsDelimiter(r.value.netloc[k])
    ensures !(|rest| >= 2 && rest[..2] == "//") ==> r == Ok(SplitResult(scheme, []))
    ensures |rest| >= 2 && rest[..2] == "//" ==>
              var n := rest[2..DelimiterFrom(rest, 2)];
              (r.Err? <==> Unbalanced(n)) && (r.Ok? ==> r.value.netloc == n)
  {
    if |rest| >= 2 && rest[..2] == "//" then
      var netloc := rest[2..DelimiterFrom(rest, 2)];
      if Unbalanced(netloc) then Err(ValueError("Invalid IPv6 URL"))
      else Ok(SplitResult(scheme, netloc))
    else
      Ok(SplitResult(scheme, []))
  }

  /** The URL has both a scheme and an authority, which is what submission asks. */
  predicate HasSchemeAndNetloc(url: string) {
    var p := UrlParse(url);
    p.Ok? && p.value.scheme != [] && p.value.netloc != []
  }

  /** Reference shape of such a URL, read directly off the cleaned text `u`:
      a scheme `u[..i]`, then "://", then a non-empty authority `u[i+3..j]`
      free of delimiters, with balanced brackets, ending the URL or followed by
      a delimiter. */
  ghost predicate AuthorityAt(u: string, i: int, j: int) {
    && 0 < i && i + 3 < j <= |u|
    && IsAsciiLetter(u[0]) && AllSchemeChars(u[..i])
    && u[i] == ':' && u[i + 1] == '/' && u[i + 2] == '/'
    && (forall k :: i + 3 <= k < j ==> !IsDelimiter(u[k]))
    && (j == |u| || IsDelimiter(u[j]))
    && !Unbalanced(u[i + 3..j])
  }

  /** What acceptance says about the split: a scheme before the first ':',
      then "//" and the authority up to the next delimiter. */
  lemma AcceptedSplit(url: string)
    requires HasSchemeAndNetloc(url)
    ensures var u := Clean(url);
            var i := Find(u, ':');
            && i > 0 && IsAsciiLetter(u[0]) && AllSchemeChars(u[..i])
            && |u[i + 1..]| >= 2 && u[i + 1..][..2] == "//"
            && DelimiterFrom(u[i + 1..], 2) > 2
            && !Unbalanced(u[i + 1..][2..DelimiterFrom(u[i + 1..], 2)])
  {
  }

  /** A scheme at `u[..i]` followed by "//" gives the reference shape, with the
      authority ending where the split ends it. */
  lemma AuthorityAfterScheme(u: string, i: int) returns (j: int)
    requires 0 < i < |u| && u[i] == ':' && IsAsciiLetter(u[0]) && AllSchemeChars(u[..i])
    requires |u[i + 1..]| >= 2 && u[i + 1..][..2] == "//"
    requires DelimiterFrom(u[i + 1..], 2) > 2
    requires !Unbalanced(u[i + 1..][2..DelimiterFrom(u[i + 1..], 2)])
    ensures j == i + 1 + DelimiterFrom(u[i + 1..], 2)
    ensures AuthorityAt(u, i, j)
  {
    var rest := u[i + 1..];
    var d := DelimiterFrom(rest, 2);
    j := i + 1 + d;
    assert rest[0] == rest[..2][0] == '/' && rest[1] == rest[..2][1] == '/';
    forall k | i + 3 <= k < j
      ensures !IsDelimiter(u[k])
    {
      assert u[k] == rest[k - i - 1];
    }
    if j < |u| {
      assert u[j] == rest[d];
    }
    assert u[i + 3..j] == rest[2..d];
  }

  /** An accepted URL has the reference shape. */
  lemma AcceptedHasShape(url: string) returns (i: int, j: int)
    requires HasSchemeAndNetloc(url)
    ensures AuthorityAt(Clean(url), i, j)
  {
    var u := Clean(url);
    i := Find(u, ':');
    AcceptedSplit(url);
    j := AuthorityAfterScheme(u, i);
  }

  /** How the split reads a text with the reference shape. */
  lemma ShapeSplit(u: string, i: int, j: int)
    requires AuthorityAt(u, i, j)
    ensures Find(u, ':') == i
    ensures |u[i + 1..]| >= 2 && u[i + 1..][..2] == "//"
    ensures DelimiterFrom(u[i + 1..], 2) == j - i - 1
    ensures u[i + 1..][2..j - i - 1] == u[i + 3..j]
  {
    assert forall k :: 0 <= k < i ==> u[..i][k] == u[k];
    var rest := u[i + 1..];
    assert rest[..2] == "//";
    var d := DelimiterFrom(rest, 2);
    assert forall k :: 2 <= k < j - i - 1 ==> rest[k] == u[k + i + 1];
    assert j - i - 1 < |rest| ==> rest[j - i - 1] == u[j];
    assert d == j - i - 1;
    assert rest[2..d] == u[i + 3..j];
  }

  /** A URL with the reference shape is accepted. */
  lemma ShapeIsAccepted(url: string, i: int, j: int)
    requires AuthorityAt(Clean(url), i, j)
    ensures HasSchemeAndNetloc(url)
  {
    var u := Clean(url);
    ShapeSplit(u, i, j);
    assert |Lower(u[..i])| == i;
  }

  /** Validation accepts a URL exactly when its cleaned text has the reference shape. */
  lemma HasSchemeAndNetlocIff(url: string)
    ensures HasSchemeAndNetloc(url) <==> exists i, j :: AuthorityAt(Clean(url), i, j)
  {
    if HasSchemeAndNetloc(url) {
      var i, j := AcceptedHasShape(url);
    }
    if exists i, j :: AuthorityAt(Clean(url), i, j) {
      var i, j :| AuthorityAt(Clean(url), i, j);
      ShapeIsAccepted(url, i, j);
    }
  }

  /** A string without a ':' has no scheme, so it never passes validation. */
  lemma NoColonNoScheme(url: string)
    requires forall k :: 0 <= k < |Clean(url)| ==> Clean(url)[k] != ':'
    ensures !HasSchemeAndNetloc(url)
  {
    HasSchemeAndNetlocIff(url);
  }

  /** Clean-up leaves alone a URL that neither starts with a C0 control or
      space nor holds a tab, CR or LF. */
  lemma {:induction false} RemoveUnsafeOfSafe(s: string)
    requires forall k :: 0 <= k < |s| ==> !IsUnsafe(s[k])
    ensures RemoveUnsafe(s) == s
  {
    if s != [] {
      RemoveUnsafeOfSafe(s[1..]);
    }
  }

  lemma CleanOfSafe(url: string)
    requires url != [] ==> !IsC0OrSpace(url[0])
    requires forall k :: 0 <= k < |url| ==> !IsUnsafe(url[k])
    ensures Clean(url) == url
  {
    RemoveUnsafeOfSafe(url);
  }

  /** A cleaned URL with no ':' that does not open with "//" splits into no
      scheme and no authority. */
  lemma NoColonNoAuthority(url: string)
    requires forall k :: 0 <= k < |Clean(url)| ==> Clean(url)[k] != ':'
    requires |Clean(url)| < 2 || Clean(url)[0] != '/'
    ensures UrlParse(url) == Ok(SplitResult([], []))
  {
    var u := Clean(url);
    assert Find(u, ':') == -1;
    if |u| >= 2 {
      assert u[..2][0] == u[0];
    }
  }

  /** A URL of safe characters, none of them ':', that opens with neither a
      control, a space nor '/', splits into no scheme and no authority. */
  lemma PlainWordSplit(url: string)
    requires url != [] && !IsC0OrSpace(url[0]) && url[0] != '/'
    requires forall k :: 0 <= k < |url| ==> url[k] != ':' && !IsUnsafe(url[k])
    ensures UrlParse(url) == Ok(SplitResult([], []))
  {
    CleanOfSafe(url);
    NoColonNoAuthority(url);
  }
}

=== FILE: utf8.dfy ===
/** UTF-8, the encoding `str.encode()` applies before hashing (section 3 of RFC 3629).

    A Dafny `char` is a Unicode scalar value, so every string encodes. The
    decoder exists to state what the encoding preserves: decoding an encoding
    gives the string back. */
module Utf8 {
  import opened Outcomes

  type byte = b: int | 0 <= b < 256

  predicate IsContinuation(b: byte) {
    0x80 <= b < 0xC0
  }

  /** The one to four bytes of one scalar value. */
  function EncodeChar(c: char): (bytes: seq<byte>)
    ensures 1 <= |bytes| <= 4
    ensures |bytes| == 1 <==> (c as int) < 0x80
    ensures forall i :: 1 <= i < |bytes| ==> IsContinuation(bytes[i])
  {
    var cp := c as int;
    if cp < 0x80 then
      [cp]
    else if cp < 0x800 then
      [0xC0 + cp / 0x40, 0x80 + cp % 0x40]
    else if cp < 0x1_0000 then
      [0xE0 + cp / 0x1000, 0x80 + (cp / 0x40) % 0x40, 0x80 + cp % 0x40]
    else
      [0xF0 + cp / 0x4_0000, 0x80 + (cp / 0x1000) % 0x40, 0x80 + (cp / 0x40) % 0x40, 0x80 + cp % 0x40]
  }

  function Encode(s: string): seq<byte> {
    if s == [] then [] else EncodeChar(s[0]) + Encode(s[1..])
  }

  predicate IsScalar(cp: int) {
    0 <= cp < 0xD800 || 0xE000 <= cp < 0x11_0000
  }

  /** The byte at `i`, or 0 past the end. */
  function Byte(bytes: seq<byte>, i: nat): int {
    if i < |bytes| then bytes[i] else 0
  }

  /** Decodes the scalar value at the head of `bytes`, returning it with the
      number of bytes it took; `None` when the head is not a shortest-form
      encoding of a scalar value. */
  function DecodeChar(bytes: seq<byte>): (r: Option<(char, nat)>)
    ensures r.Some? ==> 1 <= r.value.1 <= |bytes|
  {
    if |bytes| == 0 then None
    else
      var b0, b1, b2, b3 := bytes[0] as int, Byte(bytes, 1), Byte(bytes, 2), Byte(bytes, 3);
      if b0 < 0x80 then Some((b0 as char, 1))
      else if 0xC2 <= b0 < 0xE0 && |bytes| >= 2 && IsContinuation(bytes[1]) then
        var cp := (b0 - 0xC0) * 0x40 + (b1 - 0x80);
        if IsScalar(cp) then Some((cp as char, 2)) else None
      else if 0xE0 <= b0 < 0xF0 && |bytes| >= 3 && IsContinuation(bytes[1]) && IsContinuation(bytes[2]) then
        var cp := ((b0 - 0xE0) * 0x40 + (b1 - 0x80)) * 0x40 + (b2 - 0x80);
        if 0x800 <= cp && IsScalar(cp) then Some((cp as char, 3)) else None
      else if 0xF0 <= b0 < 0xF5 && |bytes| >= 4
              && IsContinuation(bytes[1]) && IsContinuation(bytes[2]) && IsContinuation(bytes[3]) then
        var cp := (((b0 - 0xF0) * 0x40 + (b1 - 0x80)) * 0x40 + (b2 - 0x80)) * 0x40 + (b3 - 0x80);
        if 0x1_0000 <= cp && IsScalar(cp) then Some((cp as char, 4)) else None
      else None
  }

  function Decode(bytes: seq<byte>): Option<string>
    decreases |bytes|
  {
    if bytes == [] then Some([])
    else
      match DecodeChar(bytes)
      case None => None
      case Some((c, n)) =>
        match Decode(bytes[n..])
        case None => None
        case Some(rest) => Some([c] + rest)
  }

  lemma DecodeTwoBytes(c: char, rest: seq<byte>)
    requires 0x80 <= c as int < 0x800
    ensures DecodeChar(EncodeChar(c) + rest) == Some((c, 2))
  {
    var cp := c as int;
    var bytes := EncodeChar(c) + rest;
    assert bytes[0] == 0xC0 + cp / 0x40 && bytes[1] == 0x80 + cp % 0x40;
    assert (cp / 0x40) * 0x40 + cp % 0x40 == cp;
  }

  lemma DecodeThreeBytes(c: char, rest: seq<byte>)
    requires 0x800 <= c as int < 0x1_0000
    ensures DecodeChar(EncodeChar(c) + rest) == Some((c, 3))
  {
    var cp := c as int;
    var bytes := EncodeChar(c) + rest;
    var a, b, d := cp / 0x1000, (cp / 0x40) % 0x40, cp % 0x40;
    assert bytes[0] == 0xE0 + a && bytes[1] == 0x80 + b && bytes[2] == 0x80 + d;
    assert a * 0x40 + b == cp / 0x40;
    assert (cp / 0x40) * 0x40 + d == cp;
  }

  lemma DecodeFourBytes(c: char, rest: seq<byte>)
    requires 0x1_0000 <= c as int
    ensures DecodeChar(EncodeChar(c) + rest) == Some((c, 4))
  {
    var cp := c as int;
    var bytes := EncodeChar(c) + rest;
    var a, b, d, f := cp / 0x4_0000, (cp / 0x1000) % 0x40, (cp / 0x40) % 0x40, cp % 0x40;
    assert bytes[0] == 0xF0 + a && bytes[1] == 0x80 + b && bytes[2] == 0x80 + d && bytes[3] == 0x80 + f;
    assert a * 0x40 + b == cp / 0x1000;
    assert (cp / 0x1000) * 0x40 + d == cp / 0x40;
    assert (cp / 0x40) * 0x40 + f == cp;
  }

  /** Decoding the encoding of one scalar value, whatever follows it, gives the
      value back and consumes exactly its bytes. */
  lemma DecodeEncodeChar(c: char, rest: seq<byte>)
    ensures DecodeChar(EncodeChar(c) + rest) == Some((c, |EncodeChar(c)|))
  {
    var cp := c as int;
    if cp < 0x80 {
    } else if cp < 0x800 {
      DecodeTwoBytes(c, rest);
    } else if cp < 0x1_0000 {
      DecodeThreeBytes(c, rest);
    } else {
      DecodeFourBytes(c, rest);
    }
  }

  /** Encoding loses nothing: decoding it gives the string back. */
  lemma {:induction false} DecodeEncode(s: string)
    ensures Decode(Encode(s)) == Some(s)
  {
    if s != [] {
      var head := EncodeChar(s[0]);
      var tail := Encode(s[1..]);
      DecodeEncodeChar(s[0], tail);
      assert (head + tail)[|head|..] == tail;
      DecodeEncode(s[1..]);
      assert [s[0]] + s[1..] == s;
    }
  }

  /** An ASCII string encodes to one byte per character, each its code. */
  lemma {:induction false} EncodeAscii(s: string)
    requires forall i :: 0 <= i < |s| ==> (s[i] as int) < 0x80
    ensures |Encode(s)| == |s|
    ensures forall i :: 0 <= i < |s| ==> Encode(s)[i] == s[i] as int
  {
    if s != [] {
      EncodeAscii(s[1..]);
    }
  }
}

=== FILE: worker.dfy ===
/** The job processor (app/services/worker.py): one sequential run of
    `process_job` for a dispatched job id.

    Every external service is scripted. A `Script` says whether the cache
    backend fails on get and on set, what each fetch and each language-model
    attempt yields, how each store commit attempt ends (numbered across the
    whole run) and how many milliseconds the run has taken when it reads the
    clock. A run returns the store and the cache afterwards, the job record as
    the worker last held it in memory, the trace of effects it issued, and
    whether the Celery task returned or raised. */
module Worker {
  import opened Outcomes
  import opened Models
  import Helpers
  import CacheService
  import ContentFetcher
  import Summarizer

  type Cache = CacheService.Cache

  /** One call the worker makes to the outside world. `Commit` records one
      commit attempt, with the record it writes and whether it was persisted. */
  datatype Effect =
    | CacheGet(key: Option<string>)
    | CacheSet(key: Option<string>, value: string)
    | Fetch(get: ContentFetcher.FetchRequest)
    | Summarise(chat: Summarizer.ChatRequest)
    | Commit(record: Job, persisted: bool)
    | Sleep(seconds: int)

  datatype Script = Script(
    cacheGetFails: bool,
    cacheSetFails: bool,
    extract: (string, nat) -> Attempt<string>,
    reply: (string, nat) -> Attempt<Option<string>>,
    commit: nat -> Attempt<()>,
    elapsedMs: nat)

  datatype TaskOutcome = Returned | Raised(error: Exception)

  datatype WorkerRun = WorkerRun(db: Db, cache: Cache, job: Option<Job>, effects: seq<Effect>, outcome: TaskOutcome)

  predicate IsExternal(e: Effect) {
    e.Fetch? || e.Summarise?
  }

  ghost predicate NoExternalCalls(effects: seq<Effect>) {
    forall i :: 0 <= i < |effects| ==> !IsExternal(effects[i])
  }

  /** The fields `process_job` never writes. */
  predicate SameIdentity(a: Job, b: Job) {
    && a.id == b.id && a.contentHash == b.contentHash && a.contentType == b.contentType
    && a.content == b.content && a.createdAt == b.createdAt
  }

  /** The record invariant of the job lifecycle: a completed job has a summary
      and a processing time; a queued one has no summary and is not cached. */
  predicate JobInvariant(j: Job) {
    && (j.status == Completed ==> j.summary.Some? && j.processingTimeMs.Some?)
    && (j.status == Queued ==> j.summary.None? && !j.cached)
  }

  /** A retry trace as worker effects: each call becomes `call`, each sleep a `Sleep`. */
  function Lift(trace: seq<Helpers.RetryEvent>, call: Effect): (effects: seq<Effect>)
  {
    seq(|trace|, i requires 0 <= i < |trace| => if trace[i].Called? then call else Sleep(trace[i].seconds))
  }

  function Escalate(a: Attempt<()>): TaskOutcome {
    if a.Ok? then Returned else Raised(a.error)
  }

  datatype CommitRun = CommitRun(outcome: Attempt<()>, db: Db, effects: seq<Effect>, attempts: nat)

  /** `commit_pgdb()` with `record` as the session's pending change, its
      attempts numbered from `used`: the record is upserted by id when a
      commit attempt succeeds, and the store is unchanged otherwise. */
  function CommitPgdb(db: Db, record: Job, s: Script, used: nat): (c: CommitRun)
    ensures c.outcome.Ok? ==> c.db == db[record.id := record]
    ensures c.outcome.Err? ==> c.db == db
    ensures 1 <= c.attempts <= Helpers.MaxRetries
    ensures |c.effects| == 2 * c.attempts - 1
    ensures forall i :: 0 <= i < |c.effects| ==>
              c.effects[i] == if i % 2 == 0 then Commit(record, i == |c.effects| - 1 && c.outcome.Ok?)
                              else Sleep(Helpers.RetryWaitSeconds)
    ensures c.outcome == s.commit(used + c.attempts - 1)
    ensures forall j: nat :: used <= j < used + c.attempts - 1 ==> Helpers.Transient(s.commit(j))
    ensures c.attempts < Helpers.MaxRetries ==> !Helpers.Transient(c.outcome)
  {
    var call := (i: nat) => s.commit(used + i);
    var run := Helpers.RetryOnPgdb(call);
    var ok := run.outcome.Ok?;
    var attempts := |run.trace| / 2 + 1;
    var effects := seq(2 * attempts - 1, i requires 0 <= i < 2 * attempts - 1 =>
                     if i % 2 == 0 then Commit(record, i == 2 * attempts - 2 && ok) else Sleep(Helpers.RetryWaitSeconds));
    assert forall j: nat :: used <= j < used + |run.trace| / 2 ==> s.commit(j) == call(j - used);
    CommitRun(run.outcome, if ok then db[record.id := record] else db, effects, attempts)
  }

  /** The cache probe of `process_job`: a hit only for a non-empty stored value. */
  function CacheProbe(cache: Cache, key: Option<string>, getFails: bool): (hit: Option<string>)
    ensures hit.Some? <==> !getFails && key.Some? && key.value in cache && cache[key.value] != []
    ensures hit.Some? ==> hit.value == cache[key.value]
  {
    match CacheService.GetCachedSummary(cache, key, getFails)
    case Some(v) => if v != [] then Some(v) else None
    case None => None
  }

  /** The text handed to the summariser: the fetched page for a URL job, the
      job's own content for a text job. */
  function ResolveContent(job: Job, s: Script): Helpers.RetryRun<string> {
    if job.contentType == Url then ContentFetcher.FetchUrlContent(job.content, s.extract)
    else Helpers.RetryRun(Ok(job.content), [])
  }

  /** Sets FAILED on `job` and commits it, after `effects` and `used` commit attempts. */
  function MarkFailed(db: Db, cache: Cache, job: Job, s: Script, effects: seq<Effect>, used: nat): (run: WorkerRun)
    ensures run.job == Some(job.(status := Failed)) && run.cache == cache
    ensures |run.effects| > |effects| && run.effects[..|effects|] == effects
    ensures forall i :: |effects| <= i < |run.effects| ==>
              run.effects[i] in {Commit(job.(status := Failed), true), Commit(job.(status := Failed), false), Sleep(Helpers.RetryWaitSeconds)}
    ensures run.outcome == Returned ==> run.db == db[job.id := job.(status := Failed)]
    ensures run.outcome.Raised? ==> run.db == db
    ensures CommitPgdb(db, job.(status := Failed), s, used).outcome.Ok? <==> run.outcome == Returned
  {
    var failed := job.(status := Failed);
    var c := CommitPgdb(db, failed, s, used);
    assert (effects + c.effects)[..|effects|] == effects;
    WorkerRun(c.db, cache, Some(failed), effects + c.effects, Escalate(c.outcome))
  }

  /** A cache hit: the job completes from the cached summary without any
      PROCESSING write, fetch or summarisation. */
  function CompleteFromCache(db: Db, cache: Cache, job: Job, summary: string, s: Script): WorkerRun {
    var done := job.(summary := Some(summary), status := Completed, cached := true,
                     processingTimeMs := Some(s.elapsedMs));
    var c := CommitPgdb(db, done, s, 0);
    WorkerRun(c.db, cache, Some(done), c.effects, Escalate(c.outcome))
  }

  /** A cache miss: mark PROCESSING, then resolve, summarise and save, falling
      back to FAILED when any step inside the `try` raises. */
  function ProcessMiss(db: Db, cache: Cache, job: Job, s: Script): WorkerRun {
    var processing := job.(status := Processing, cached := false);
    var marked := CommitPgdb(db, processing, s, 0);
    if marked.outcome.Err? then MarkFailed(marked.db, cache, processing, s, marked.effects, marked.attempts)
    else Resolve(marked.db, cache, job, s, marked.effects, marked.attempts)
  }

  /** After the PROCESSING commit: fetch the page of a URL job, or take the text. */
  function Resolve(db: Db, cache: Cache, job: Job, s: Script, effects: seq<Effect>, used: nat): WorkerRun {
    var resolved := ResolveContent(job, s);
    var fetched := effects + Lift(resolved.trace, Fetch(ContentFetcher.Request(job.content)));
    match resolved.outcome
    case Err(_) => MarkFailed(db, cache, job.(status := Processing, cached := false), s, fetched, used)
    case Ok(text) => SummariseAndSave(db, cache, job, s, text, fetched, used)
  }

  /** Summarise the resolved text. */
  function SummariseAndSave(db: Db, cache: Cache, job: Job, s: Script, text: string,
                            effects: seq<Effect>, used: nat): WorkerRun {
    var summarised := Summarizer.Summarize(text, s.reply);
    var asked := effects + Lift(summarised.trace, Summarise(Summarizer.Request(text)));
    match summarised.outcome
    case Err(_) => MarkFailed(db, cache, job.(status := Processing, cached := false), s, asked, used)
    case Ok(summary) => Save(db, cache, job, s, summary, asked, used)
  }

  /** Record the summary, cache it, time the run and commit COMPLETED; a failed
      commit turns the same record FAILED. */
  function Save(db: Db, cache: Cache, job: Job, s: Script, summary: string,
                effects: seq<Effect>, used: nat): WorkerRun {
    var done := job.(status := Completed, cached := false, summary := Some(summary),
                     processingTimeMs := Some(s.elapsedMs));
    var cache' := CacheService.SetCachedSummary(cache, job.contentHash, summary, s.cacheSetFails);
    var saved := CommitPgdb(db, done, s, used);
    var written := effects + [CacheSet(job.contentHash, summary)] + saved.effects;
    if saved.outcome.Ok? then WorkerRun(saved.db, cache', Some(done), written, Returned)
    else MarkFailed(saved.db, cache', done, s, written, used + saved.attempts)
  }

  /** `process_job(job_id)`. */
  function ProcessJob(db: Db, cache: Cache, jobId: JobId, s: Script): (run: WorkerRun)
    ensures jobId !in db ==> run == WorkerRun(db, cache, None, [], Returned)
    ensures jobId in db ==> run.job.Some? && |run.effects| > 0 && run.effects[0] == CacheGet(db[jobId].contentHash)
  {
    if jobId !in db then WorkerRun(db, cache, None, [], Returned)
    else
      var job := db[jobId];
      var probe := [CacheGet(job.contentHash)];
      match CacheProbe(cache, job.contentHash, s.cacheGetFails)
      case Some(summary) =>
        var run := CompleteFromCache(db, cache, job, summary, s);
        run.(effects := probe + run.effects)
      case None =>
        var run := ProcessMiss(db, cache, job, s);
        run.(effects := probe + run.effects)
  }

  /** Every effect in `effects` is one `process_job` may issue for `job`: each
      commit writes a record with `job`'s identity that satisfies the record
      invariant and is not QUEUED; each fetch asks for `job`'s URL; each chat
      request carries the text resolved from `job`. */
  ghost predicate Faithful(effects: seq<Effect>, job: Job, s: Script) {
    forall i :: 0 <= i < |effects| ==> FaithfulEffect(effects[i], job, s)
  }

  ghost predicate FaithfulEffect(e: Effect, job: Job, s: Script) {
    && (e.Commit? ==> SameIdentity(e.record, job) && JobInvariant(e.record) && e.record.status != Queued)
    && (e.Fetch? ==> job.contentType == Url && e.get == ContentFetcher.Request(job.content))
    && (e.Summarise? ==> ResolveContent(job, s).outcome.Ok?
                         && e.chat == Summarizer.Request(ResolveContent(job, s).outcome.value))
  }

  /** The store changed, if at all, only under `id`, and then to a record one
      of `effects` persisted. */
  ghost predicate StoreEffect(db: Db, db': Db, id: JobId, effects: seq<Effect>) {
    db' == db || (id in db' && db' == db[id := db'[id]] && Commit(db'[id], true) in effects)
  }

  lemma StoreEffectChain(db: Db, db1: Db, db2: Db, id: JobId, e1: seq<Effect>, e2: seq<Effect>, e: seq<Effect>)
    requires StoreEffect(db, db1, id, e1) && StoreEffect(db1, db2, id, e2)
    requires forall x :: x in e1 || x in e2 ==> x in e
    ensures StoreEffect(db, db2, id, e)
  {
    if db2 != db1 && db1 != db {
      assert db2 == db[id := db2[id]];
    }
  }

  lemma FaithfulConcat(a: seq<Effect>, b: seq<Effect>, job: Job, s: Script)
    requires Faithful(a, job, s) && Faithful(b, job, s)
    ensures Faithful(a + b, job, s)
  {
    forall i | 0 <= i < |a + b|
      ensures FaithfulEffect((a + b)[i], job, s)
    {
      if i >= |a| { assert (a + b)[i] == b[i - |a|]; }
    }
  }

  lemma NoExternalConcat(a: seq<Effect>, b: seq<Effect>)
    requires NoExternalCalls(a) && NoExternalCalls(b)
    ensures NoExternalCalls(a + b)
  {
    forall i | 0 <= i < |a + b|
      ensures !IsExternal((a + b)[i])
    {
      if i >= |a| { assert (a + b)[i] == b[i - |a|]; }
    }
  }

  /** What a commit contributes: attempts on one record, and the store updated
      with it exactly when an attempt persisted it. */
  lemma CommitFacts(db: Db, record: Job, s: Script, used: nat, job: Job)
    requires SameIdentity(record, job) && JobInvariant(record) && record.status != Queued
    ensures var c := CommitPgdb(db, record, s, used);
            && Faithful(c.effects, job, s) && NoExternalCalls(c.effects)
            && StoreEffect(db, c.db, record.id, c.effects)
            && (c.outcome.Ok? ==> c.effects[|c.effects| - 1] == Commit(record, true))
  {
    var c := CommitPgdb(db, record, s, used);
    if c.outcome.Ok? {
      assert c.effects[|c.effects| - 1] == Commit(record, true);
    }
  }

  lemma LiftFacts(trace: seq<Helpers.RetryEvent>, call: Effect, job: Job, s: Script)
    requires FaithfulEffect(call, job, s)
    ensures Faithful(Lift(trace, call), job, s)
  {
  }

  /** A run that continues `effects`: it keeps them as a prefix, adds only
      effects faithful to `origin`, changes the store only through them, and
      ends with a non-cached record of `origin` that satisfies the invariant
      and, when the Celery task returns, is the one row it changed. */
  ghost predicate Continues(run: WorkerRun, db: Db, effects: seq<Effect>, origin: Job, s: Script) {
    && |effects| <= |run.effects| && run.effects[..|effects|] == effects
    && (Faithful(effects, origin, s) ==> Faithful(run.effects, origin, s))
    && StoreEffect(db, run.db, origin.id, run.effects)
    && run.job.Some? && SameIdentity(run.job.value, origin) && !run.job.value.cached
    && JobInvariant(run.job.value) && run.job.value.status != Queued
    && (run.outcome == Returned ==> run.db == db[origin.id := run.job.value])
  }

  /** A run that continues an extension of `effects` continues `effects`. */
  lemma ContinuesPrefix(run: WorkerRun, db: Db, effects: seq<Effect>, more: seq<Effect>, origin: Job, s: Script)
    requires Continues(run, db, effects + more, origin, s)
    requires Faithful(more, origin, s)
    ensures Continues(run, db, effects, origin, s)
  {
    assert run.effects[..|effects|] == (effects + more)[..|effects|];
    if Faithful(effects, origin, s) { FaithfulConcat(effects, more, origin, s); }
  }

  lemma MarkFailedContinues(db: Db, cache: Cache, job: Job, s: Script, effects: seq<Effect>, used: nat, origin: Job)
    requires SameIdentity(job, origin) && !job.cached
    ensures var run := MarkFailed(db, cache, job, s, effects, used);
            && Continues(run, db, effects, origin, s)
            && (NoExternalCalls(effects) ==> NoExternalCalls(run.effects))
  {
    var failed := job.(status := Failed);
    var c := CommitPgdb(db, failed, s, used);
    CommitFacts(db, failed, s, used, origin);
    if Faithful(effects, origin, s) { FaithfulConcat(effects, c.effects, origin, s); }
    if NoExternalCalls(effects) { NoExternalConcat(effects, c.effects); }
    StoreEffectChain(db, db, c.db, job.id, [], c.effects, effects + c.effects);
  }

  /** The effects of `Save` before any FAILED fallback: they continue `effects`
      faithfully, and the commit changed the store only through them. */
  lemma SaveWrites(db: Db, job: Job, s: Script, summary: string, effects: seq<Effect>, used: nat)
    ensures var done := job.(status := Completed, cached := false, summary := Some(summary),
                             processingTimeMs := Some(s.elapsedMs));
            var saved := CommitPgdb(db, done, s, used);
            var written := effects + [CacheSet(job.contentHash, summary)] + saved.effects;
            && written[..|effects|] == effects
            && (Faithful(effects, job, s) ==> Faithful(written, job, s))
            && StoreEffect(db, saved.db, job.id, written)
  {
    var done := job.(status := Completed, cached := false, summary := Some(summary),
                     processingTimeMs := Some(s.elapsedMs));
    var saved := CommitPgdb(db, done, s, used);
    var stored := [CacheSet(job.contentHash, summary)];
    var written := effects + stored + saved.effects;
    CommitFacts(db, done, s, used, job);
    assert written[..|effects|] == effects;
    if Faithful(effects, job, s) {
      FaithfulConcat(effects, stored, job, s);
      FaithfulConcat(effects + stored, saved.effects, job, s);
    }
    assert forall x :: x in saved.effects ==> x in written;
    StoreEffectChain(db, db, saved.db, job.id, [], saved.effects, written);
  }

  lemma SaveContinues(db: Db, cache: Cache, job: Job, s: Script, summary: string, effects: seq<Effect>, used: nat)
    ensures Continues(Save(db, cache, job, s, summary, effects, used), db, effects, job, s)
  {
    var done := job.(status := Completed, cached := false, summary := Some(summary),
                     processingTimeMs := Some(s.elapsedMs));
    var saved := CommitPgdb(db, done, s, used);
    SaveWrites(db, job, s, summary, effects, used);
    if saved.outcome.Err? {
      SaveFallsBack(db, cache, job, s, summary, effects, used);
      SaveFailedContinues(db, cache, job, s, summary, effects, used, Save(db, cache, job, s, summary, effects, used));
    }
  }

  lemma SaveFailedContinues(db: Db, cache: Cache, job: Job, s: Script, summary: string, effects: seq<Effect>, used: nat,
                            run: WorkerRun)
    requires CommitPgdb(db, job.(status := Completed, cached := false, summary := Some(summary),
                                 processingTimeMs := Some(s.elapsedMs)), s, used).outcome.Err?
    requires var done := job.(status := Completed, cached := false, summary := Some(summary),
                              processingTimeMs := Some(s.elapsedMs));
             var saved := CommitPgdb(db, done, s, used);
             run == MarkFailed(db, CacheService.SetCachedSummary(cache, job.contentHash, summary, s.cacheSetFails), done, s,
                               effects + [CacheSet(job.contentHash, summary)] + saved.effects, used + saved.attempts)
    ensures Continues(run, db, effects, job, s)
  {
    var done := job.(status := Completed, cached := false, summary := Some(summary),
                     processingTimeMs := Some(s.elapsedMs));
    var cache' := CacheService.SetCachedSummary(cache, job.contentHash, summary, s.cacheSetFails);
    var saved := CommitPgdb(db, done, s, used);
    var written := effects + [CacheSet(job.contentHash, summary)] + saved.effects;
    SaveWrites(db, job, s, summary, effects, used);
    FallbackContinues(db, cache', job, done, s, effects, written, used + saved.attempts);
  }

  lemma FallbackContinues(db: Db, cache: Cache, job: Job, done: Job, s: Script,
                          effects: seq<Effect>, written: seq<Effect>, used: nat)
    requires SameIdentity(done, job) && !done.cached
    requires |effects| <= |written| && written[..|effects|] == effects
    requires Faithful(effects, job, s) ==> Faithful(written, job, s)
    ensures Continues(MarkFailed(db, cache, done, s, written, used), db, effects, job, s)
  {
    MarkFailedContinues(db, cache, done, s, written, used, job);
    ContinuesThrough(MarkFailed(db, cache, done, s, written, used), db, effects, written, job, s);
  }

  lemma SaveFallsBack(db: Db, cache: Cache, job: Job, s: Script, summary: string, effects: seq<Effect>, used: nat)
    requires CommitPgdb(db, job.(status := Completed, cached := false, summary := Some(summary),
                                 processingTimeMs := Some(s.elapsedMs)), s, used).outcome.Err?
    ensures var done := job.(status := Completed, cached := false, summary := Some(summary),
                             processingTimeMs := Some(s.elapsedMs));
            var saved := CommitPgdb(db, done, s, used);
            Save(db, cache, job, s, summary, effects, used)
            == MarkFailed(db, CacheService.SetCachedSummary(cache, job.contentHash, summary, s.cacheSetFails), done, s,
                          effects + [CacheSet(job.contentHash, summary)] + saved.effects, used + saved.attempts)
  {
  }

  /** A run that continues `written` continues any prefix of it whose
      faithfulness carries over to `written`. */
  lemma ContinuesThrough(run: WorkerRun, db: Db, effects: seq<Effect>, written: seq<Effect>, origin: Job, s: Script)
    requires |effects| <= |written| && written[..|effects|] == effects
    requires Faithful(effects, origin, s) ==> Faithful(written, origin, s)
    requires Continues(run, db, written, origin, s)
    ensures Continues(run, db, effects, origin, s)
  {
    assert run.effects[..|effects|] == written[..|effects|];
  }

  lemma SummariseAndSaveContinues(db: Db, cache: Cache, job: Job, s: Script, text: string, effects: seq<Effect>, used: nat)
    requires ResolveContent(job, s).outcome == Ok(text)
    ensures Continues(SummariseAndSave(db, cache, job, s, text, effects, used), db, effects, job, s)
  {
    var summarised := Summarizer.Summarize(text, s.reply);
    var lifted := Lift(summarised.trace, Summarise(Summarizer.Request(text)));
    var run := SummariseAndSave(db, cache, job, s, text, effects, used);
    LiftFacts(summarised.trace, Summarise(Summarizer.Request(text)), job, s);
    if summarised.outcome.Err? {
      MarkFailedContinues(db, cache, job.(status := Processing, cached := false), s, effects + lifted, used, job);
    } else {
      SaveContinues(db, cache, job, s, summarised.outcome.value, effects + lifted, used);
    }
    ContinuesPrefix(run, db, effects, lifted, job, s);
  }

  lemma ResolveContinues(db: Db, cache: Cache, job: Job, s: Script, effects: seq<Effect>, used: nat)
    ensures Continues(Resolve(db, cache, job, s, effects, used), db, effects, job, s)
  {
    var resolved := ResolveContent(job, s);
    var lifted := Lift(resolved.trace, Fetch(ContentFetcher.Request(job.content)));
    var run := Resolve(db, cache, job, s, effects, used);
    if job.contentType == Url {
      LiftFacts(resolved.trace, Fetch(ContentFetcher.Request(job.content)), job, s);
    } else {
      assert lifted == [];
    }
    if resolved.outcome.Err? {
      MarkFailedContinues(db, cache, job.(status := Processing, cached := false), s, effects + lifted, used, job);
    } else {
      SummariseAndSaveContinues(db, cache, job, s, resolved.outcome.value, effects + lifted, used);
    }
    ContinuesPrefix(run, db, effects, lifted, job, s);
  }

  /** The facts every cache-miss run shares, whichever step fails. */
  lemma ProcessMissFacts(db: Db, cache: Cache, job: Job, s: Script)
    ensures var run := ProcessMiss(db, cache, job, s);
            var processing := job.(status := Processing, cached := false);
            var marked := CommitPgdb(db, processing, s, 0);
            && Continues(run, db, marked.effects, job, s)
            && Faithful(run.effects, job, s)
            && (marked.outcome.Err? ==> NoExternalCalls(run.effects) && run.job.value == processing.(status := Failed))
  {
    var processing := job.(status := Processing, cached := false);
    var marked := CommitPgdb(db, processing, s, 0);
    CommitFacts(db, processing, s, 0, job);
    if marked.outcome.Err? {
      MarkFailedContinues(marked.db, cache, processing, s, marked.effects, marked.attempts, job);
    } else {
      ResolveContinues(marked.db, cache, job, s, marked.effects, marked.attempts);
    }
    var run := ProcessMiss(db, cache, job, s);
    StoreEffectChain(db, marked.db, run.db, job.id, marked.effects, run.effects, run.effects);
  }
}

=== FILE: worker_properties.dfy ===
/** Properties of whole `process_job` runs (app/services/worker.py). */
module WorkerProperties {
  import opened Outcomes
  import opened Models
  import opened Worker
  import Helpers
  import CacheService
  import ContentFetcher

  /** A commit whose first attempt succeeds writes the record once. */
  lemma CommitFirstOk(db: Db, record: Job, s: Script, used: nat)
    requires s.commit(used).Ok?
    ensures CommitPgdb(db, record, s, used) == CommitRun(s.commit(used), db[record.id := record], [Commit(record, true)], 1)
  {
    var c := CommitPgdb(db, record, s, used);
    assert c.attempts == 1;
    assert c.effects[0] == Commit(record, true);
    assert c.effects == [Commit(record, true)];
  }

  /** A commit whose three attempts all raise OperationalError leaves the store
      as it was, after three unpersisted writes. */
  lemma CommitExhausted(db: Db, record: Job, s: Script, used: nat)
    requires Helpers.Transient(s.commit(used)) && Helpers.Transient(s.commit(used + 1))
             && Helpers.Transient(s.commit(used + 2))
    ensures var c := CommitPgdb(db, record, s, used);
            && c.outcome == s.commit(used + 2) && c.db == db && c.attempts == 3
  {
  }

  /** A run that ends holding a valid, non-QUEUED record of `job`, issued only
      effects faithful to it, changed the store only through a persisted
      commit of it, and, if it returned, left that record in the store. */
  ghost predicate Settled(run: WorkerRun, db: Db, job: Job, s: Script) {
    && run.job.Some? && SameIdentity(run.job.value, job)
    && JobInvariant(run.job.value) && run.job.value.status != Queued
    && Faithful(run.effects, job, s)
    && StoreEffect(db, run.db, job.id, run.effects)
    && (run.outcome == Returned ==> run.db == db[job.id := run.job.value])
  }

  lemma ProbeKeepsSettled(run: WorkerRun, db: Db, job: Job, s: Script)
    requires Settled(run, db, job, s)
    ensures Settled(run.(effects := [CacheGet(job.contentHash)] + run.effects), db, job, s)
  {
    var probe := [CacheGet(job.contentHash)];
    FaithfulConcat(probe, run.effects, job, s);
    assert forall x :: x in run.effects ==> x in probe + run.effects;
  }

  lemma HitSettled(db: Db, cache: Cache, job: Job, summary: string, s: Script)
    ensures var run := CompleteFromCache(db, cache, job, summary, s);
            Settled(run, db, job, s) && run.job.value.cached
  {
    var done := job.(summary := Some(summary), status := Completed, cached := true,
                     processingTimeMs := Some(s.elapsedMs));
    CommitFacts(db, done, s, 0, job);
  }

  lemma MissSettled(db: Db, cache: Cache, job: Job, s: Script)
    ensures var run := ProcessMiss(db, cache, job, s);
            Settled(run, db, job, s) && !run.job.value.cached
  {
    ProcessMissFacts(db, cache, job, s);
  }

  /** Whatever the services do, a run on a stored job settles it, and the
      record it ends with is flagged cached exactly on a cache hit. */
  lemma ProcessJobFacts(db: Db, cache: Cache, jobId: JobId, s: Script)
    requires jobId in db
    ensures var run := ProcessJob(db, cache, jobId, s);
            && Settled(run, db, db[jobId], s)
            && (run.job.value.cached <==> CacheProbe(cache, db[jobId].contentHash, s.cacheGetFails).Some?)
  {
    var job := db[jobId];
    match CacheProbe(cache, job.contentHash, s.cacheGetFails)
    case Some(summary) =>
      HitSettled(db, cache, job, summary, s);
      ProbeKeepsSettled(CompleteFromCache(db, cache, job, summary, s), db, job, s);
    case None =>
      MissSettled(db, cache, job, s);
      ProbeKeepsSettled(ProcessMiss(db, cache, job, s), db, job, s);
  }

  /** A task that returns has made the record it ends with durable: the
      store is the old one with exactly that row written. A task that raises
      may leave the row QUEUED or PROCESSING. */
  lemma ReturnedRunIsDurable(db: Db, cache: Cache, jobId: JobId, s: Script)
    requires jobId in db
    ensures var run := ProcessJob(db, cache, jobId, s);
            run.outcome == Returned ==> run.db == db[db[jobId].id := run.job.value]
  {
    ProcessJobFacts(db, cache, jobId, s);
  }

  /** Every store row satisfies the record invariant. */
  ghost predicate StoreInvariant(db: Db) {
    forall id :: id in db ==> JobInvariant(db[id])
  }

  /** A persisted commit in a faithful trace wrote a record of the job that
      satisfies the invariant. */
  lemma PersistedIsFaithful(effects: seq<Effect>, job: Job, s: Script, record: Job)
    requires Faithful(effects, job, s) && Commit(record, true) in effects
    ensures SameIdentity(record, job) && JobInvariant(record) && record.status != Queued
  {
    var i :| 0 <= i < |effects| && effects[i] == Commit(record, true);
    assert FaithfulEffect(effects[i], job, s);
  }

  /** On a store keyed by job id, `process_job` writes only the row of its own
      job, never changes that row's identity, keeps the store keyed by id and
      keeps every row satisfying the record invariant. */
  lemma StoreStaysConsistent(db: Db, cache: Cache, jobId: JobId, s: Script)
    requires WellKeyed(db)
    ensures var run := ProcessJob(db, cache, jobId, s);
            && run.db.Keys == db.Keys
            && (forall id :: id in db && id != jobId ==> run.db[id] == db[id])
            && (jobId in db ==> SameIdentity(run.db[jobId], db[jobId]))
            && WellKeyed(run.db)
            && (StoreInvariant(db) ==> StoreInvariant(run.db))
  {
    var run := ProcessJob(db, cache, jobId, s);
    if jobId in db {
      ProcessJobFacts(db, cache, jobId, s);
      if run.db != db {
        PersistedIsFaithful(run.effects, db[jobId], s, run.db[jobId]);
      }
    }
  }

  /** A cache hit completes the job from the cached summary, flagged cached,
      with no PROCESSING write, no fetch and no summarisation; when the
      commit finally fails the Celery task raises and the store is unchanged. */
  lemma CacheHitCompletes(db: Db, cache: Cache, jobId: JobId, s: Script)
    requires jobId in db
    requires CacheProbe(cache, db[jobId].contentHash, s.cacheGetFails).Some?
    ensures var job := db[jobId];
            var done := job.(summary := Some(cache[job.contentHash.value]), status := Completed,
                             cached := true, processingTimeMs := Some(s.elapsedMs));
            var run := ProcessJob(db, cache, jobId, s);
            && run.job == Some(done) && run.cache == cache
            && run.effects[0] == CacheGet(job.contentHash)
            && (forall i :: 1 <= i < |run.effects| ==>
                  run.effects[i] in {Commit(done, true), Commit(done, false), Sleep(Helpers.RetryWaitSeconds)})
            && (run.outcome == Returned ==> run.db == db[job.id := done])
            && (run.outcome.Raised? ==> run.db == db)
            && (s.commit(0).Ok? ==> run.outcome == Returned && run.effects == [CacheGet(job.contentHash), Commit(done, true)])
  {
    var job := db[jobId];
    var done := job.(summary := Some(cache[job.contentHash.value]), status := Completed,
                     cached := true, processingTimeMs := Some(s.elapsedMs));
    var c := CommitPgdb(db, done, s, 0);
    var run := ProcessJob(db, cache, jobId, s);
    assert run.effects == [CacheGet(job.contentHash)] + c.effects;
    forall i | 1 <= i < |run.effects|
      ensures run.effects[i] in {Commit(done, true), Commit(done, false), Sleep(Helpers.RetryWaitSeconds)}
    {
      assert run.effects[i] == c.effects[i - 1];
    }
    if s.commit(0).Ok? { CommitFirstOk(db, done, s, 0); }
  }

  /** `effects[k]` is the first write of `processing`, persisted or not, and
      every fetch or summarisation in `effects` comes after a persisted write
      of it. */
  ghost predicate MarksFirst(effects: seq<Effect>, k: nat, processing: Job, persisted: bool) {
    && k < |effects|
    && effects[k] == Commit(processing, persisted)
    && (forall i :: 0 <= i < |effects| && IsExternal(effects[i]) ==>
          Commit(processing, true) in effects[..i])
  }

  lemma ShiftMarks(effects: seq<Effect>, k: nat, processing: Job, persisted: bool, probe: Effect)
    requires MarksFirst(effects, k, processing, persisted) && !IsExternal(probe)
    ensures MarksFirst([probe] + effects, k + 1, processing, persisted)
  {
    var e := [probe] + effects;
    forall i | 0 <= i < |e| && IsExternal(e[i])
      ensures Commit(processing, true) in e[..i]
    {
      assert e[i] == effects[i - 1];
      assert e[..i] == [probe] + effects[..i - 1];
    }
  }

  /** A run that starts with the commit of `processing`, makes no external
      call during it, and either makes none at all or ends it with the
      persisted record, marks `processing` first. */
  lemma MarksFromPrefix(effects: seq<Effect>, prefix: seq<Effect>, processing: Job, persisted: bool)
    requires 1 <= |prefix| <= |effects| && effects[..|prefix|] == prefix
    requires prefix[0] == Commit(processing, persisted)
    requires NoExternalCalls(prefix)
    requires NoExternalCalls(effects) || prefix[|prefix| - 1] == Commit(processing, true)
    ensures MarksFirst(effects, 0, processing, persisted)
  {
    assert effects[0] == prefix[0];
    if !NoExternalCalls(effects) {
      var last := |prefix| - 1;
      assert forall j :: 0 <= j <= last ==> effects[j] == prefix[j];
      forall i | 0 <= i < |effects| && IsExternal(effects[i])
        ensures Commit(processing, true) in effects[..i]
      {
        assert effects[..i][last] == prefix[last];
      }
    }
  }

  /** The miss path keeps the write of the PROCESSING record as its prefix,
      and makes no external call when that write failed. */
  lemma MissKeepsMark(db: Db, cache: Cache, job: Job, s: Script)
    ensures var marked := CommitPgdb(db, job.(status := Processing, cached := false), s, 0);
            var run := ProcessMiss(db, cache, job, s);
            && |marked.effects| <= |run.effects| && run.effects[..|marked.effects|] == marked.effects
            && (marked.outcome.Err? ==> NoExternalCalls(run.effects))
  {
    ProcessMissFacts(db, cache, job, s);
  }

  /** The write of the PROCESSING record starts with its first attempt,
      persisted exactly when that attempt succeeds, and ends with the
      persisted record when the write succeeds. */
  lemma MarkShape(db: Db, processing: Job, s: Script, job: Job)
    requires processing == job.(status := Processing, cached := false)
    ensures var marked := CommitPgdb(db, processing, s, 0);
            && marked.effects[0] == Commit(processing, s.commit(0).Ok?)
            && NoExternalCalls(marked.effects)
            && (marked.outcome.Ok? ==> marked.effects[|marked.effects| - 1] == Commit(processing, true))
  {
    if s.commit(0).Ok? { CommitFirstOk(db, processing, s, 0); }
    CommitFacts(db, processing, s, 0, job);
  }

  /** The ordering promise of a cache miss, before the probe is prepended. */
  lemma MissOrder(db: Db, cache: Cache, job: Job, s: Script)
    ensures MarksFirst(ProcessMiss(db, cache, job, s).effects, 0, job.(status := Processing, cached := false), s.commit(0).Ok?)
  {
    var processing := job.(status := Processing, cached := false);
    var marked := CommitPgdb(db, processing, s, 0);
    var run := ProcessMiss(db, cache, job, s);
    MissKeepsMark(db, cache, job, s);
    MarkShape(db, processing, s, job);
    MarksFromPrefix(run.effects, marked.effects, processing, s.commit(0).Ok?);
  }

  /** On a cache miss the first write, right after the probe, is the
      PROCESSING record, persisted exactly when the first commit attempt
      succeeds, and no fetch or summarisation happens before it has been
      persisted. */
  lemma MissMarksProcessingFirst(db: Db, cache: Cache, jobId: JobId, s: Script)
    requires jobId in db
    requires CacheProbe(cache, db[jobId].contentHash, s.cacheGetFails).None?
    ensures MarksFirst(ProcessJob(db, cache, jobId, s).effects, 1,
                       db[jobId].(status := Processing, cached := false), s.commit(0).Ok?)
  {
    var job := db[jobId];
    MissRun(db, cache, jobId, s);
    MissOrder(db, cache, job, s);
    ShiftMarks(ProcessMiss(db, cache, job, s).effects, 0, job.(status := Processing, cached := false),
               s.commit(0).Ok?, CacheGet(job.contentHash));
  }

  /** A job already COMPLETED is processed again when it is dispatched again
      and the cache misses: its first write puts it back to PROCESSING. */
  lemma FinishedJobIsReprocessed(db: Db, cache: Cache, jobId: JobId, s: Script)
    requires jobId in db && db[jobId].status == Completed
    requires CacheProbe(cache, db[jobId].contentHash, s.cacheGetFails).None?
    requires s.commit(0).Ok?
    ensures var run := ProcessJob(db, cache, jobId, s);
            && |run.effects| >= 2 && run.effects[1].Commit?
            && run.effects[1].record.status == Processing && run.effects[1].persisted
  {
    MissMarksProcessingFirst(db, cache, jobId, s);
  }

  /** What reaches the outside world is routed by content type: only a URL
      job fetches, and it fetches its own URL with the 5-second timeout; the
      summariser is asked only about the resolved text, which for a text job
      is the job's content and for a URL job is at most 10000 characters. */
  lemma ContentIsRouted(db: Db, cache: Cache, jobId: JobId, s: Script)
    requires jobId in db
    ensures var job := db[jobId];
            var run := ProcessJob(db, cache, jobId, s);
            && (forall e :: e in run.effects && e.Fetch? ==>
                  job.contentType == Url && e.get == ContentFetcher.FetchRequest(job.content, ContentFetcher.RequestTimeoutSeconds))
            && (forall e :: e in run.effects && e.Summarise? && job.contentType == Text ==>
                  e.chat.text == job.content)
            && (forall e :: e in run.effects && e.Summarise? && job.contentType == Url ==>
                  |e.chat.text| <= ContentFetcher.MaxContentLength)
  {
    var job := db[jobId];
    var run := ProcessJob(db, cache, jobId, s);
    ProcessJobFacts(db, cache, jobId, s);
    forall e | e in run.effects
      ensures FaithfulEffect(e, job, s)
    {
      var i :| 0 <= i < |run.effects| && run.effects[i] == e;
    }
  }

  /** The COMPLETED record `Save` writes for `job`. */
  function Done(job: Job, summary: string, s: Script): (done: Job)
    ensures SameIdentity(done, job) && JobInvariant(done)
    ensures done.status == Completed && !done.cached && done.summary == Some(summary)
  {
    job.(status := Completed, cached := false, summary := Some(summary), processingTimeMs := Some(s.elapsedMs))
  }

  /** The text the summariser is given for `job`, when it could be resolved. */
  function ResolvedText(job: Job, s: Script): Option<string> {
    var resolved := ResolveContent(job, s);
    if resolved.outcome.Ok? then Some(resolved.outcome.value) else None
  }

  /** The summary the summariser returns for `job`, when the text could be
      resolved and summarised. */
  function SummaryOf(job: Job, s: Script): Option<string> {
    match ResolvedText(job, s)
    case None => None
    case Some(text) =>
      var summarised := Summarizer.Summarize(text, s.reply);
      if summarised.outcome.Ok? then Some(summarised.outcome.value) else None
  }

  /** The PROCESSING commit that opens the miss path of `job`, with its retries. */
  function Marked(db: Db, job: Job, s: Script): CommitRun {
    CommitPgdb(db, job.(status := Processing, cached := false), s, 0)
  }

  /** The COMPLETED commit of `job` with `summary` that closes the miss path,
      its attempts numbered after those of the PROCESSING commit. */
  function Saved(db: Db, job: Job, s: Script, summary: string): CommitRun {
    var marked := Marked(db, job, s);
    CommitPgdb(marked.db, Done(job, summary, s), s, marked.attempts)
  }

  /** A run that misses the cache is the miss path with the probe in front. */
  lemma MissRun(db: Db, cache: Cache, jobId: JobId, s: Script)
    requires jobId in db
    requires CacheProbe(cache, db[jobId].contentHash, s.cacheGetFails).None?
    ensures var inner := ProcessMiss(db, cache, db[jobId], s);
            ProcessJob(db, cache, jobId, s) == inner.(effects := [CacheGet(db[jobId].contentHash)] + inner.effects)
  {
  }

  /** Once PROCESSING is persisted, after however many attempts, and the text
      resolved and summarised, the miss path is `Save` on the store holding
      the PROCESSING record. */
  lemma MissReachesSave(db: Db, cache: Cache, job: Job, s: Script) returns (asked: seq<Effect>)
    requires Marked(db, job, s).outcome.Ok? && SummaryOf(job, s).Some?
    ensures var marked := Marked(db, job, s);
            ProcessMiss(db, cache, job, s) == Save(marked.db, cache, job, s, SummaryOf(job, s).value, asked, marked.attempts)
  {
    var marked := Marked(db, job, s);
    var text := ResolvedText(job, s).value;
    var fetched := marked.effects + Lift(ResolveContent(job, s).trace, Fetch(ContentFetcher.Request(job.content)));
    asked := fetched + Lift(Summarizer.Summarize(text, s.reply).trace, Summarise(Summarizer.Request(text)));
    assert ProcessMiss(db, cache, job, s) == Resolve(marked.db, cache, job, s, marked.effects, marked.attempts);
    assert Resolve(marked.db, cache, job, s, marked.effects, marked.attempts)
        == SummariseAndSave(marked.db, cache, job, s, text, fetched, marked.attempts);
  }

  /** Once PROCESSING is persisted, a text that cannot be resolved or
      summarised sends the miss path to `MarkFailed` on the PROCESSING record. */
  lemma MissReachesMarkFailed(db: Db, cache: Cache, job: Job, s: Script) returns (asked: seq<Effect>)
    requires Marked(db, job, s).outcome.Ok? && SummaryOf(job, s).None?
    ensures var marked := Marked(db, job, s);
            var processing := job.(status := Processing, cached := false);
            ProcessMiss(db, cache, job, s) == MarkFailed(marked.db, cache, processing, s, asked, marked.attempts)
  {
    var marked := Marked(db, job, s);
    var fetched := marked.effects + Lift(ResolveContent(job, s).trace, Fetch(ContentFetcher.Request(job.content)));
    assert ProcessMiss(db, cache, job, s) == Resolve(marked.db, cache, job, s, marked.effects, marked.attempts);
    if ResolveContent(job, s).outcome.Ok? {
      var text := ResolvedText(job, s).value;
      asked := fetched + Lift(Summarizer.Summarize(text, s.reply).trace, Summarise(Summarizer.Request(text)));
    } else {
      asked := fetched;
    }
  }

  /** How a run ends when the COMPLETED commit of `job` with `summary`, its
      attempts numbered from `used`, persisted on a store `db` that then held
      the PROCESSING record: the summary was offered to the cache, and the
      run's last effects are that offer followed by the commit attempts, the
      last one persisting the COMPLETED record. */
  ghost predicate CompletedWithSummary(run: WorkerRun, db: Db, cache: Cache, job: Job, s: Script, summary: string, used: nat) {
    var done := Done(job, summary, s);
    var commits := CommitPgdb(db[job.id := job.(status := Processing, cached := false)], done, s, used).effects;
    && run.outcome == Returned
    && run.job == Some(done)
    && run.db == db[job.id := done]
    && run.cache == CacheService.SetCachedSummary(cache, job.contentHash, summary, s.cacheSetFails)
    && |run.effects| > |commits|
    && run.effects[|run.effects| - |commits| - 1] == CacheSet(job.contentHash, summary)
    && run.effects[|run.effects| - |commits|..] == commits
    && run.effects[|run.effects| - 1] == Commit(done, true)
  }

  lemma SaveCompletes(db: Db, cache: Cache, job: Job, s: Script, summary: string, asked: seq<Effect>, used: nat)
    requires CommitPgdb(db[job.id := job.(status := Processing, cached := false)], Done(job, summary, s), s, used).outcome.Ok?
    ensures CompletedWithSummary(Save(db[job.id := job.(status := Processing, cached := false)], cache, job, s, summary, asked, used),
                                 db, cache, job, s, summary, used)
  {
    var db1 := db[job.id := job.(status := Processing, cached := false)];
    var done := Done(job, summary, s);
    var saved := CommitPgdb(db1, done, s, used);
    var written := asked + [CacheSet(job.contentHash, summary)] + saved.effects;
    assert written[|written| - |saved.effects|..] == saved.effects;
    assert written[|written| - |saved.effects| - 1] == CacheSet(job.contentHash, summary);
    assert db1[job.id := done] == db[job.id := done];
  }

  lemma MissPathCompletes(db: Db, cache: Cache, job: Job, s: Script)
    requires Marked(db, job, s).outcome.Ok? && SummaryOf(job, s).Some?
    requires Saved(db, job, s, SummaryOf(job, s).value).outcome.Ok?
    ensures CompletedWithSummary(ProcessMiss(db, cache, job, s), db, cache, job, s, SummaryOf(job, s).value,
                                 Marked(db, job, s).attempts)
  {
    var asked := MissReachesSave(db, cache, job, s);
    SaveCompletes(db, cache, job, s, SummaryOf(job, s).value, asked, Marked(db, job, s).attempts);
  }

  lemma ProbeKeepsCompleted(run: WorkerRun, db: Db, cache: Cache, job: Job, s: Script, summary: string, used: nat, probe: Effect)
    requires CompletedWithSummary(run, db, cache, job, s, summary, used)
    ensures CompletedWithSummary(run.(effects := [probe] + run.effects), db, cache, job, s, summary, used)
  {
    var commits := CommitPgdb(db[job.id := job.(status := Processing, cached := false)], Done(job, summary, s), s, used).effects;
    var e := [probe] + run.effects;
    assert e[|e| - |commits|..] == run.effects[|run.effects| - |commits|..];
    assert e[|e| - |commits| - 1] == run.effects[|run.effects| - |commits| - 1];
    assert e[|e| - 1] == run.effects[|run.effects| - 1];
  }

  /** A cache miss on which the PROCESSING commit persists, the text resolves
      and is summarised, and the COMPLETED commit persists, each commit after
      however many retries: the job is committed COMPLETED, not cached, with
      the summary and the processing time, right after the summary was
      offered to the cache. */
  lemma MissCompletes(db: Db, cache: Cache, jobId: JobId, s: Script)
    requires jobId in db
    requires CacheProbe(cache, db[jobId].contentHash, s.cacheGetFails).None?
    requires Marked(db, db[jobId], s).outcome.Ok?
    requires SummaryOf(db[jobId], s).Some?
    requires Saved(db, db[jobId], s, SummaryOf(db[jobId], s).value).outcome.Ok?
    ensures CompletedWithSummary(ProcessJob(db, cache, jobId, s), db, cache, db[jobId], s, SummaryOf(db[jobId], s).value,
                                 Marked(db, db[jobId], s).attempts)
  {
    var job := db[jobId];
    MissRun(db, cache, jobId, s);
    MissPathCompletes(db, cache, job, s);
    ProbeKeepsCompleted(ProcessMiss(db, cache, job, s), db, cache, job, s, SummaryOf(job, s).value,
                        Marked(db, job, s).attempts, CacheGet(job.contentHash));
  }

  /** How a run ends when the PROCESSING record of `job` was persisted on
      `db` and resolving or summarising then failed: the FAILED commit, its
      attempts numbered from `used`, decides whether the task returns. */
  ghost predicate FailedBeforeSummary(run: WorkerRun, db: Db, cache: Cache, job: Job, s: Script, used: nat) {
    var processing := job.(status := Processing, cached := false);
    var failed := processing.(status := Failed);
    && run.job == Some(failed)
    && run.cache == cache
    && (run.outcome == Returned ==> run.db == db[job.id := failed])
    && (run.outcome.Raised? ==> run.db == db[job.id := processing])
    && (CommitPgdb(db[job.id := processing], failed, s, used).outcome.Ok? <==> run.outcome == Returned)
  }

  lemma MarkFailedAfterMark(db: Db, cache: Cache, job: Job, s: Script, asked: seq<Effect>, used: nat)
    ensures var processing := job.(status := Processing, cached := false);
            FailedBeforeSummary(MarkFailed(db[job.id := processing], cache, processing, s, asked, used), db, cache, job, s, used)
  {
    var processing := job.(status := Processing, cached := false);
    var db1 := db[job.id := processing];
    assert db1[job.id := processing.(status := Failed)] == db[job.id := processing.(status := Failed)];
  }

  lemma MissPathFails(db: Db, cache: Cache, job: Job, s: Script)
    requires Marked(db, job, s).outcome.Ok? && SummaryOf(job, s).None?
    ensures FailedBeforeSummary(ProcessMiss(db, cache, job, s), db, cache, job, s, Marked(db, job, s).attempts)
  {
    var asked := MissReachesMarkFailed(db, cache, job, s);
    MarkFailedAfterMark(db, cache, job, s, asked, Marked(db, job, s).attempts);
  }

  /** After PROCESSING is persisted, after however many attempts, a fetch or
      summarisation that fails every attempt turns the job FAILED with no
      summary written and the cache untouched. The task returns exactly when
      the FAILED commit persists; otherwise the store keeps PROCESSING. */
  lemma StepFailureFails(db: Db, cache: Cache, jobId: JobId, s: Script)
    requires jobId in db
    requires CacheProbe(cache, db[jobId].contentHash, s.cacheGetFails).None?
    requires Marked(db, db[jobId], s).outcome.Ok?
    requires SummaryOf(db[jobId], s).None?
    ensures var job := db[jobId];
            var processing := job.(status := Processing, cached := false);
            var failed := processing.(status := Failed);
            var run := ProcessJob(db, cache, jobId, s);
            && run.job == Some(failed)
            && run.cache == cache
            && (run.outcome == Returned ==> run.db == db[job.id := failed])
            && (run.outcome.Raised? ==> run.db == db[job.id := processing])
            && (CommitPgdb(db[job.id := processing], failed, s, Marked(db, job, s).attempts).outcome.Ok?
                <==> run.outcome == Returned)
  {
    MissRun(db, cache, jobId, s);
    MissPathFails(db, cache, db[jobId], s);
  }

  /** How a run ends after the COMPLETED commit of `job` with `summary`, its
      attempts numbered from `used`, failed on a store `db` that then held the
      PROCESSING record: the same record turns FAILED and is committed, its
      attempts numbered after those of the failed commit. */
  ghost predicate FailedAfterSummary(run: WorkerRun, db: Db, cache: Cache, job: Job, s: Script, summary: string, used: nat) {
    var processing := job.(status := Processing, cached := false);
    var failed := Done(job, summary, s).(status := Failed);
    var saved := CommitPgdb(db[job.id := processing], Done(job, summary, s), s, used);
    && run.job == Some(failed)
    && run.cache == CacheService.SetCachedSummary(cache, job.contentHash, summary, s.cacheSetFails)
    && (run.outcome == Returned ==> run.db == db[job.id := failed])
    && (run.outcome.Raised? ==> run.db == db[job.id := processing])
    && (CommitPgdb(db[job.id := processing], failed, s, used + saved.attempts).outcome.Ok? <==> run.outcome == Returned)
  }

  lemma SaveFailsAfterMark(db: Db, cache: Cache, job: Job, s: Script, summary: string, asked: seq<Effect>, used: nat)
    requires CommitPgdb(db[job.id := job.(status := Processing, cached := false)], Done(job, summary, s), s, used).outcome.Err?
    ensures FailedAfterSummary(Save(db[job.id := job.(status := Processing, cached := false)], cache, job, s, summary, asked, used),
                               db, cache, job, s, summary, used)
  {
    var db1 := db[job.id := job.(status := Processing, cached := false)];
    assert db1[job.id := Done(job, summary, s).(status := Failed)] == db[job.id := Done(job, summary, s).(status := Failed)];
  }

  /** The miss path when the COMPLETED commit raises, transiently three times
      or otherwise at once. */
  lemma MissFinalCommitFails(db: Db, cache: Cache, job: Job, s: Script)
    requires Marked(db, job, s).outcome.Ok? && SummaryOf(job, s).Some?
    requires Saved(db, job, s, SummaryOf(job, s).value).outcome.Err?
    ensures FailedAfterSummary(ProcessMiss(db, cache, job, s), db, cache, job, s, SummaryOf(job, s).value,
                               Marked(db, job, s).attempts)
  {
    var asked := MissReachesSave(db, cache, job, s);
    SaveFailsAfterMark(db, cache, job, s, SummaryOf(job, s).value, asked, Marked(db, job, s).attempts);
  }

  /** When the COMPLETED commit raises, whatever the exception, the same
      record, summary and processing time included, is committed FAILED, the
      summary stays offered to the cache, and the task returns exactly when
      that commit, its attempts numbered after the two before it, persists;
      otherwise the store keeps PROCESSING. */
  lemma FinalCommitFailureFails(db: Db, cache: Cache, jobId: JobId, s: Script)
    requires jobId in db
    requires CacheProbe(cache, db[jobId].contentHash, s.cacheGetFails).None?
    requires Marked(db, db[jobId], s).outcome.Ok?
    requires SummaryOf(db[jobId], s).Some?
    requires Saved(db, db[jobId], s, SummaryOf(db[jobId], s).value).outcome.Err?
    ensures var job := db[jobId];
            var failed := Done(job, SummaryOf(job, s).value, s).(status := Failed);
            failed.summary == SummaryOf(job, s) && failed.processingTimeMs == Some(s.elapsedMs)
    ensures FailedAfterSummary(ProcessJob(db, cache, jobId, s), db, cache, db[jobId], s,
                               SummaryOf(db[jobId], s).value, Marked(db, db[jobId], s).attempts)
  {
    MissRun(db, cache, jobId, s);
    MissFinalCommitFails(db, cache, db[jobId], s);
  }
}
